=== FILE: README.md ===
# Image harvester: a Dafny model

This project models the image harvester `download_images_from_linked_pages`
from `IGEN430/rpi_image_collect.py`. The harvester fetches a root page and
tries every `img` it finds there, saving as `root_<i>_<name>` those that
have a source and whose GET succeeds. It then follows the
root page's anchors one level deep. For each followed link it either saves
the link itself, when the link is an image (`link_<j>_direct_<name>`), or
scans the linked HTML page and saves that page's images as `<j>_<i>_<name>`.
The `<name>` part comes from `_safe_filename_from_url`. The files go into
the output directory or into a dated subfolder `images_YYYYmmdd_HHMMSS`.

The model is a set of pure functions. The network, the HTML parser, `urljoin`
with `urlparse`, SHA-1 and the clock are parameters:

- `Harvest.Web` bundles the fetch oracle, the URL joiner and the digest.
- `OutputFolder.Timestamp` stands for the clock.

`Harvest.Run` returns either `RootFailed` or the files the run creates, in
creation order, together with a record of the link loop:

- the counted links, with how each was classified;
- the numbers of the pages that were scanned;
- why the loop stopped.

Modules:

| module | file | what it holds |
|---|---|---|
| `Options` | options.dfy | `Option`, for values that may be absent |
| `Digits` | digits.dfy | `str(n)` and zero-padded `%0wd` renderings, with their parsers |
| `Filenames` | filenames.dfy | POSIX `PurePath.name`, the unsafe-character replacement, `_safe_filename_from_url` |
| `Classifier` | classify.dfy | `PurePath.suffix`, ASCII `lower()`, the direct-image test of line 92 |
| `Naming` | naming.dfy | the three file-name shapes and a parser that reads them back |
| `OutputFolder` | folder.dfy | the dated folder name and the output path |
| `Harvest` | harvest.dfy | the image loop, one link-loop iteration, the link loop, the whole run |
| `LinkLoop` | loop_proofs.dfy | properties of the link loop for any loop body that meets per-link conditions |
| `HarvestProofs` | harvest_proofs.dfy | those conditions for the real loop body, and the properties of a whole run |

The link loop is written once as `Harvest.Loop`, parameterised by its body.
`Harvest.FollowLinks` applies it to `Harvest.LinkStep`, the body of lines
75-136. The loop lemmas of `LinkLoop` assume `WellFormed`: every step meets `StepOk`.
That is, every counted step is about its own link, numbers its files
`count + 1`, and scans only HTML pages. `HarvestProofs.LinkStepOk` proves
`StepOk` for `LinkStep`. Some lemmas assume one more condition on the body:

- `LoopCounts` assumes `SkipsExactly`: the body skips exactly the links a
  given filter rejects.
- `LoopBudget` and `LoopNegative` assume `BreaksAt`: the body breaks for
  the budget exactly on a link whose number exceeds `max_links`.
- `LoopUnbounded` assumes that no step breaks for the budget.
Those lemmas say what the files of a run can be. `LinkLoop.LoopOutputs` says
what they are: for each counted link, the files numbered with it are exactly
the files its own step produced. `HarvestProofs.RunLinkOutput` and
`HarvestProofs.RunPageImage` apply this to the real loop body.

Three members are plumbing and carry no claim of their own:

- `Classifier.ContentTypeOf` reads a missing Content-Type header as `''`
  (line 85).
- `Harvest.Anchors` resolves each `href` against the root URL (lines 71-77).
- `Options.Option` stands for a value that may be `None`.

## Model

| member | source | states |
|---|---|---|
| Digits.Dec | IGEN430/rpi_image_collect.py:60 | `str(i)` of an index is a non-empty digit string with no leading zero |
| Digits.ParseDecOfDec | IGEN430/rpi_image_collect.py:60 | reading `str(n)` back as a decimal number gives `n` |
| Digits.DecInjective | IGEN430/rpi_image_collect.py:60 | distinct indices render differently |
| Digits.Fixed | IGEN430/rpi_image_collect.py:32 | a `%0wd` field has exactly `w` digits |
| Digits.ParseDecOfFixed | IGEN430/rpi_image_collect.py:32 | a zero-padded field reads back as the number it renders |
| Filenames.Sanitize | IGEN430/rpi_image_collect.py:17 | the replacement keeps the length, turns each of the nine unsafe characters into `_`, keeps every other character, and leaves no unsafe character |
| Filenames.SanitizeFixedPoints | IGEN430/rpi_image_collect.py:17 | the replacement changes a name exactly when the name has an unsafe character; applying it twice equals applying it once |
| Filenames.PathNameIsComponent | IGEN430/rpi_image_collect.py:12 | `Path(p).name` is empty or a single component: non-empty, no `/`, not `.` |
| Filenames.PathNameOfLastComponent | IGEN430/rpi_image_collect.py:12 | a component after the last `/` is the name, whatever precedes it |
| Filenames.PathNameIgnoresTrailer | IGEN430/rpi_image_collect.py:12 | a trailing `/` or `/.` does not change the name |
| Filenames.PathNameEmpty | IGEN430/rpi_image_collect.py:12-13 | the name is empty exactly when every segment of the path is empty or `.`; this is when the fallback is taken |
| Filenames.SafeFilename | IGEN430/rpi_image_collect.py:10-18 | the derived name is never empty and never holds an unsafe character |
| Filenames.NamedAfterComponent | IGEN430/rpi_image_collect.py:11-18 | with a last component, the name is that component with exactly the unsafe characters replaced; URLs with the same path (any query) get the same name; a safe component is used unchanged |
| Filenames.FallbackName | IGEN430/rpi_image_collect.py:13-15 | without a last component, the name is `image_` plus the 40-digit SHA-1 of the whole URL plus `.jpg` (50 characters) |
| Classifier.LowerEach | IGEN430/rpi_image_collect.py:92 | `Lower`, the model's ASCII `lower()`, maps each character on its own, position by position: each ASCII capital becomes its small letter and every other character stays as it is |
| Classifier.LastDot | IGEN430/rpi_image_collect.py:92 | the index found is a dot with no dot after it, or -1 when there is no dot |
| Classifier.SuffixMatches | IGEN430/rpi_image_collect.py:92 | for a dot-led extension, the lowered suffix equals it exactly when the name is longer and ends with it, ignoring case |
| Classifier.ImageSuffixByExtension | IGEN430/rpi_image_collect.py:92 | the suffix test holds exactly when the name ends, ignoring case, in one of `.jpg`, `.jpeg`, `.png`, `.gif` after at least one other character |
| Classifier.Classify | IGEN430/rpi_image_collect.py:92 | a link is a direct image exactly when its content type starts with `image/` or its path's name ends in one of the four extensions after at least one other character |
| Classifier.ClassifyWithoutHeader | IGEN430/rpi_image_collect.py:85-92 | with no header only the suffix decides; `/.png` is a page, not an image |
| Naming.RootRoundTrip | IGEN430/rpi_image_collect.py:60 | `root_<i>_<base>` parses back to its index and base |
| Naming.DirectRoundTrip | IGEN430/rpi_image_collect.py:96 | `link_<j>_direct_<base>` parses back to its link number and base |
| Naming.OnPageRoundTrip | IGEN430/rpi_image_collect.py:128 | `<j>_<i>_<base>` parses back to its link number, index and base |
| Naming.ParseFileNameRoundTrip | IGEN430/rpi_image_collect.py:60-128 | every file name of the three shapes parses back to the tag and base it was built from |
| Naming.FileNameInjective | IGEN430/rpi_image_collect.py:60-128 | two file names are equal only when tag and base are equal |
| OutputFolder.DatedName | IGEN430/rpi_image_collect.py:32 | the dated folder name has the fixed length of `images_YYYYmmdd_HHMMSS`, 22 characters, for every valid start time |
| OutputFolder.DatedNameRoundTrip | IGEN430/rpi_image_collect.py:32 | the dated folder name parses back to the timestamp it shows |
| OutputFolder.DatedNamesDistinct | IGEN430/rpi_image_collect.py:31-33 | two runs get the same folder exactly when they start in the same second |
| OutputFolder.OutputPath | IGEN430/rpi_image_collect.py:30-35 | with the dated flag the path is the base plus one folder naming the start time; without it the path is the base |
| Harvest.ScopeTag | IGEN430/rpi_image_collect.py:60 | a page image's tag carries the page's link number (0 for the root) and the image's position, and is never a direct-link tag |
| Harvest.ImageSource | IGEN430/rpi_image_collect.py:52-54 | a tag has a source exactly when `src` or `data-src` is present and non-empty; a non-empty `src` wins |
| Harvest.SaveImage | IGEN430/rpi_image_collect.py:55-68 | an image is saved exactly when it has a source and its GET succeeds; the file holds the joined URL's body under the position's tag and the derived name; it is complete exactly when the body streams without error |
| Harvest.LinkStep | IGEN430/rpi_image_collect.py:76-136 | a link is skipped exactly when the origin filter rejects it or its GET fails; a counted link is recorded with the classifier's verdict on its own response; it breaks for the budget exactly when its number exceeds `max_links`; a direct image always writes exactly `link_<j>_direct_<name>`, complete exactly when its body streams, even when it then breaks; an HTML page within the budget whose body can be read is scanned as page `j` and its files are exactly its image loop; otherwise the loop ends there with no file, for the budget or for the unreadable body |
| Harvest.Run | IGEN430/rpi_image_collect.py:38-46 | the run fails, with nothing saved and no link followed, exactly when the root GET or its body fails |
| LinkLoop.LoopFiles | IGEN430/rpi_image_collect.py:74-136 | files of the link loop carry the numbers of counted links, never the root's, in tag order |
| LinkLoop.LoopScanned | IGEN430/rpi_image_collect.py:111-116 | every scanned page is a counted link classified as HTML, and pages are scanned in increasing number |
| LinkLoop.LoopDirectFiles | IGEN430/rpi_image_collect.py:92-109 | a `link_<j>_direct_` file holds the body of the j-th counted link, which was classified as a direct image |
| LinkLoop.LoopPageFiles | IGEN430/rpi_image_collect.py:115-136 | a `<j>_<i>_` file comes from page `j`, which was scanned |
| LinkLoop.LoopCounts | IGEN430/rpi_image_collect.py:74-111 | the counted links are the admitted links in order, up to where the loop stopped, and all of them when it ran out of links |
| LinkLoop.LoopRoutes | IGEN430/rpi_image_collect.py:92 | every counted link has the property each counted step guarantees for its own link |
| LinkLoop.LoopBudget | IGEN430/rpi_image_collect.py:106-113 | with budget `K > 0`: at most `K + 1` links are counted, the loop breaks exactly when it counts the `(K + 1)`-th, no page above `K` is scanned or yields page images, and only a direct image can carry number `K + 1` |
| LinkLoop.LoopOutputs | IGEN430/rpi_image_collect.py:74-136 | for every counted link, the files numbered with it are exactly the files its own iteration produced, and its page is scanned exactly when that iteration scans it |
| LinkLoop.LoopNegative | IGEN430/rpi_image_collect.py:106-113 | with a budget below every count, the loop counts at most one link, breaks for the budget exactly when it counts one, and scans nothing |
| LinkLoop.LoopStop | IGEN430/rpi_image_collect.py:74-115 | a loop that stops before its links run out was ended by the step of its last counted link, which recorded that link and gave the reason |
| LinkLoop.LoopContinues | IGEN430/rpi_image_collect.py:75-136 | the loop goes on past a counted link only when that link's step is `Next`: every counted link before the last, and every one when the links ran out, was taken by a `Next` step |
| LinkLoop.LoopUnbounded | IGEN430/rpi_image_collect.py:107-113 | a loop body that never breaks for the budget gives a loop that never stops for it |
| HarvestProofs.ImageLoopMembers | IGEN430/rpi_image_collect.py:51-68 | the image loop writes exactly the files of the attempts that succeed; a failed image does not stop the others |
| HarvestProofs.ImageLoopTags | IGEN430/rpi_image_collect.py:51-60 | image-loop files carry the page's scope and the positions of their tags, at most one file per tag, in increasing position order |
| HarvestProofs.ImageLoopPosition | IGEN430/rpi_image_collect.py:51-68 | the files carrying position `i` are exactly the result of the attempt on the `i`-th tag: one file when it succeeds, none otherwise; skipped and failed tags still use up their position |
| HarvestProofs.PageImagesOk | IGEN430/rpi_image_collect.py:119-128 | the images of linked page `j` are named `<j>_<i>_` and come in increasing position order |
| HarvestProofs.LinkStepOk | IGEN430/rpi_image_collect.py:90-136 | one counted iteration meets the conditions the loop lemmas assume: it is about its own link; a direct image yields only its `link_<j>_direct_` file, holding its own body, and scans nothing; an HTML page scans at most page `j` and yields only `<j>_<i>_` files, in position order |
| HarvestProofs.AdmittedLinks | IGEN430/rpi_image_collect.py:78-88 | the admitted links are exactly the given links that pass the origin filter and whose GET succeeds |
| HarvestProofs.RootImageSaved | IGEN430/rpi_image_collect.py:49-68 | the i-th root image gives a file exactly when it has a source and its GET succeeds, and then exactly one: `root_<i>_<derived name>`, holding that URL's body |
| HarvestProofs.RunAscending | IGEN430/rpi_image_collect.py:48-136 | a run creates its files in increasing order of link number, then position |
| HarvestProofs.RunNamesDistinct | IGEN430/rpi_image_collect.py:59-129 | no two files of one run share a name |
| HarvestProofs.RunCounts | IGEN430/rpi_image_collect.py:74-111 | the j-th counted link is the j-th admitted anchor, so links the origin filter rejects or whose GET fails take no number; a run that ran out of links counted every admitted anchor |
| HarvestProofs.RunClassified | IGEN430/rpi_image_collect.py:82-92 | each counted link was fetched and recorded with the classifier's verdict on its own response |
| HarvestProofs.RunScans | IGEN430/rpi_image_collect.py:90-136 | only HTML pages are scanned, in increasing link order; every `link_<j>_direct_` file holds the body of link `j`, which was classified a direct image and not parsed; every page file comes from a scanned page |
| HarvestProofs.RunLinkOutput | IGEN430/rpi_image_collect.py:82-136 | every counted link was fetched; a direct image link, the `(K + 1)`-th included, has exactly its `link_<j>_direct_` file; an HTML link is scanned exactly when it is within the budget and its body can be read, and then its files are exactly its image loop, otherwise it has none |
| HarvestProofs.RunPageImage | IGEN430/rpi_image_collect.py:115-136 | for the i-th `img` of a scanned linked page `j`, the run's files tagged `<j>_<i>_` are exactly that image's own attempt: one file when it has a source and its GET succeeds, none otherwise |
| HarvestProofs.RunNegativeBudget | IGEN430/rpi_image_collect.py:106-113 | with a negative `max_links` the run counts at most one link, breaks for the budget exactly when it counts one, and scans no page |
| HarvestProofs.RunStopReason | IGEN430/rpi_image_collect.py:82-115 | the link loop breaks for the budget only on a counted link whose number exceeds `max_links`; it ends for an unreadable body only on its last counted link, an HTML page within the budget whose GET succeeded and whose body read raised; a failed link or image fetch never ends it |
| HarvestProofs.RunEndsAtUnreadablePage | IGEN430/rpi_image_collect.py:111-115 | a counted HTML page within the budget whose GET succeeded but whose body cannot be read is the last counted link, and the loop stops for it with `PageBodyFailed` |
| HarvestProofs.RunUnbounded | IGEN430/rpi_image_collect.py:74-115 | with `max_links` `None` or `0`, the run counts the admitted anchors in order, and all of them unless a linked HTML page's body cannot be read |
| HarvestProofs.RunBudget | IGEN430/rpi_image_collect.py:106-113 | with `max_links = K > 0` the budget facts above hold for the run and at most `K` pages are scanned; with `None` or `0` the budget never stops the run, so every admitted anchor is counted unless a linked page's body read fails (`RunUnbounded`) |

## Behaviour of the code worth noting

- Reading a linked page's body can raise, and nothing catches it. The body
  is read at line 115, after the `try` of lines 82-88 has closed. A
  `RequestException` there ends the whole call. Every other network
  failure is caught: a failed root fetch returns `None` (line 43), and any
  other failure skips that image or link. The model ends the loop with
  `Stop.PageBodyFailed` and keeps the files written so far;
  `RunEndsAtUnreadablePage` states that such a page ends the loop.
- A failure while streaming an image body leaves a truncated file. The
  `open` at lines 62, 98 and 130 runs before the body is read, and the
  `except` at lines 67, 103 and 135 does not remove the file. In the model
  such a file has `complete = false`.
- With `max_links = K`, the link counter is raised at line 106 or 111 and
  only then compared with `K` at line 107 or 112. So a `(K + 1)`-th link is
  counted before the loop breaks. When that link is a direct image, its file
  was already written at lines 95-101. `LoopBudget` and `RunLinkOutput`
  state this.
- A negative `max_links` is truthy, and every count exceeds it. The loop
  therefore breaks on the first counted link, after saving it if it is a
  direct image. `Harvest.Exceeds` models the test, and `RunNegativeBudget`
  states the outcome.

## Left out

- Directory creation (line 36), file writing, chunked streaming, the
  session, timeouts and all `print` output are not modelled. A written file
  is a `Write` record.
- HTML parsing is an oracle: `Response.page` is what BeautifulSoup would
  find.
- `urljoin` and `urlparse` are one oracle, `Web.join`. `Url` holds only the
  whole string, the network location and the path.
- SHA-1 is an oracle returning forty lower-case hex digits.
- The fetch oracle is a function: two GETs of the same URL in one run see
  the same response. The source fetches afresh each time.
- `Harvest.Run` does not return the output path. `OutputFolder.OutputPath`
  gives it separately. The source returns it at line 138, or `None` when
  the root fails.
- Exceptions other than `RequestException` are not modelled. An `OSError`
  from `open`, for instance, would escape the call.
- Header lookup in `requests` is case-insensitive. The model receives the
  Content-Type value already looked up.
- Classifier.Lower: lowers ASCII letters only and keeps each character in
  place. Python's `lower()` can also map a non-ASCII character to a longer
  string; `'İ'.lower()` is `i` followed by a combining dot. The membership
  test of line 92 is still exact: no non-ASCII character lowers to a string
  made only of the characters of `.jpg`, `.jpeg`, `.png` and `.gif`. So a
  suffix with a non-ASCII character never matches, in Python or in the
  model.
- Filenames.PathName: follows POSIX `PurePath`, where only `/` separates
  components. On Windows `\` separates them too, so `/a\b.jpg` is named
  `b.jpg` there and `a_b.jpg` in the model.
- Classifier.Suffix: follows `PurePath.suffix` of Python 3.8 to 3.13. The
  suffix starts at the last dot, which must be neither the first nor the
  last character of the name.
- OutputFolder.DatedName: requires a four-digit year. `%Y` padding for
  other years depends on the platform.
- Two runs started in the same second share a folder and may overwrite each
  other's files. The model only states when folder names coincide.
- The `__main__` block (lines 141-145) is a fixed example invocation.

=== FILE: classify.dfy ===
/** The link classifier: a fetched link is a direct image when its declared
    Content-Type starts with `image/` or its path ends in a known image
    extension (compared case-insensitively); otherwise it is an HTML page. */
module Classifier {
  import opened Options
  import opened Filenames

  /** The two ways a fetched link is handled. */
  datatype Kind = DirectImage | HtmlPage

  predicate StartsWith(s: string, prefix: string) {
    |prefix| <= |s| && s[..|prefix|] == prefix
  }

  function LowerChar(c: char): char {
    if 'A' <= c <= 'Z' then (c as int - 'A' as int + 'a' as int) as char else c
  }

  /** `str.lower()` restricted to ASCII letters; see README for why this is
      exact for the comparison the classifier makes. */
  function Lower(s: string): (r: string)
    ensures |r| == |s|
    decreases |s|
  {
    if s == [] then [] else [LowerChar(s[0])] + Lower(s[1..])
  }

  /** Lower-casing works character by character. */
  lemma {:induction false} LowerEach(s: string)
    ensures forall k | 0 <= k < |s| :: Lower(s)[k] == LowerChar(s[k])
    decreases |s|
  {
    if s != [] {
      LowerEach(s[1..]);
    }
  }

  /** `str.rfind('.')`: the index of the last dot, or -1. */
  function LastDot(s: string): (i: int)
    ensures -1 <= i < |s|
    ensures i >= 0 ==> s[i] == '.'
    ensures forall k | i < k < |s| :: s[k] != '.'
    decreases |s|
  {
    if s == [] then -1
    else if s[|s| - 1] == '.' then |s| - 1
    else LastDot(s[..|s| - 1])
  }

  /** `PurePath.suffix` of a name: from its last dot, unless that dot is the
      first or the last character. */
  function Suffix(name: string): string {
    var i := LastDot(name);
    if 0 < i < |name| - 1 then name[i..] else []
  }

  /** The extensions the classifier treats as images. */
  const ImageSuffixes: set<string> := {".jpg", ".jpeg", ".png", ".gif"}

  /** The lower-cased suffix of a name is one of the image extensions. */
  predicate NameHasImageSuffix(name: string) {
    Lower(Suffix(name)) in ImageSuffixes
  }

  /** The extension test on the name of a URL path. */
  predicate HasImageSuffix(path: string) {
    NameHasImageSuffix(PathName(path))
  }

  /** An independent reading of the extension test: the name is longer than
      the extension `e` and ends with it, ignoring case. */
  predicate EndsWithExt(name: string, e: string) {
    |e| < |name| && Lower(name[|name| - |e|..]) == e
  }

  /** For an extension `e` that is a dot followed by dot-free text, the
      lower-cased suffix is `e` exactly when the name ends with `e`. */
  lemma SuffixMatches(name: string, e: string)
    requires |e| >= 2 && e[0] == '.'
    requires forall k | 1 <= k < |e| :: e[k] != '.'
    ensures Lower(Suffix(name)) == e <==> EndsWithExt(name, e)
  {
    if EndsWithExt(name, e) {
      var i := |name| - |e|;
      LowerEach(name[i..]);
      assert LowerChar(name[i]) == Lower(name[i..])[0];
      assert name[i] == '.';
      forall k | i < k < |name|
        ensures name[k] != '.'
      {
        assert LowerChar(name[k]) == Lower(name[i..])[k - i];
      }
      assert LastDot(name) == i;
    }
    if Lower(Suffix(name)) == e {
      var i := LastDot(name);
      assert 0 < i < |name| - 1;
      assert name[|name| - |e|..] == name[i..];
    }
  }

  /** One of the four extensions ends the name. */
  predicate EndsWithImageExt(name: string) {
    EndsWithExt(name, ".jpg") || EndsWithExt(name, ".jpeg")
    || EndsWithExt(name, ".png") || EndsWithExt(name, ".gif")
  }

  lemma ImageSuffixHasExtension(name: string)
    requires NameHasImageSuffix(name)
    ensures EndsWithImageExt(name)
  {
    var x := Lower(Suffix(name));
    if x == ".jpg" {
      SuffixMatches(name, ".jpg");
    } else if x == ".jpeg" {
      SuffixMatches(name, ".jpeg");
    } else if x == ".png" {
      SuffixMatches(name, ".png");
    } else {
      SuffixMatches(name, ".gif");
    }
  }

  lemma ExtensionIsImageSuffix(name: string)
    requires EndsWithImageExt(name)
    ensures NameHasImageSuffix(name)
  {
    if EndsWithExt(name, ".jpg") {
      SuffixMatches(name, ".jpg");
    } else if EndsWithExt(name, ".jpeg") {
      SuffixMatches(name, ".jpeg");
    } else if EndsWithExt(name, ".png") {
      SuffixMatches(name, ".png");
    } else {
      SuffixMatches(name, ".gif");
    }
  }

  /** The extension test, stated extension by extension. */
  lemma ImageSuffixByExtension(name: string)
    ensures NameHasImageSuffix(name) <==> EndsWithImageExt(name)
  {
    if NameHasImageSuffix(name) {
      ImageSuffixHasExtension(name);
    }
    if EndsWithImageExt(name) {
      ExtensionIsImageSuffix(name);
    }
  }

  /** A missing Content-Type header reads as the empty string. */
  function ContentTypeOf(header: Option<string>): (ct: string)
    ensures header.None? ==> ct == []
    ensures header.Some? ==> ct == header.value
  {
    match header
    case Some(v) => v
    case None => []
  }

  /** The classifier condition: `DirectImage` exactly when the content type
      starts with `image/` or the path's name ends, case-insensitively, in
      `.jpg`, `.jpeg`, `.png` or `.gif` after at least one other character. */
  function Classify(contentType: string, path: string): (k: Kind)
    ensures var name := PathName(path);
      k == DirectImage <==>
        StartsWith(contentType, "image/")
        || EndsWithExt(name, ".jpg") || EndsWithExt(name, ".jpeg")
        || EndsWithExt(name, ".png") || EndsWithExt(name, ".gif")
  {
    ImageSuffixByExtension(PathName(path));
    if StartsWith(contentType, "image/") || HasImageSuffix(path) then DirectImage else HtmlPage
  }

  /** Without a Content-Type header only the extension decides; a name that
      is only an extension, such as `/.png`, has no suffix and is a page. */
  lemma ClassifyWithoutHeader(path: string)
    ensures Classify(ContentTypeOf(None), path) == DirectImage <==> HasImageSuffix(path)
    ensures Classify(ContentTypeOf(None), "/.png") == HtmlPage
  {
    var name := ".png";
    assert IsComponent(name);
    PathNameOfLastComponent([], name);
    assert [] + "/" + name == "/.png";
    assert name[0] == '.' && name[1] != '.' && name[2] != '.' && name[3] != '.';
    assert LastDot(name) == 0;
  }
}

=== FILE: digits.dfy ===
/** Decimal renderings of natural numbers: `str(n)` for the file-name
    indices and zero-padded fixed-width fields for `strftime`. Each rendering
    is paired with `ParseDec`, which reads it back. */
module Digits {

  predicate IsDigit(c: char) {
    '0' <= c <= '9'
  }

  predicate AllDigits(s: string) {
    forall k | 0 <= k < |s| :: IsDigit(s[k])
  }

  function DigitChar(d: nat): (c: char)
    requires d < 10
    ensures IsDigit(c) && c as int - '0' as int == d
  {
    (('0' as int) + d) as char
  }

  function DigitValue(c: char): (d: nat)
    requires IsDigit(c)
    ensures d < 10
  {
    c as int - '0' as int
  }

  /** Reads a string of digits as a decimal number (leading zeros allowed). */
  function ParseDec(s: string): nat
    requires AllDigits(s)
    decreases |s|
  {
    if s == [] then 0 else 10 * ParseDec(s[..|s| - 1]) + DigitValue(s[|s| - 1])
  }

  /** Python's `str(n)` for a non-negative int: the shortest decimal rendering. */
  function Dec(n: nat): (s: string)
    ensures |s| >= 1 && AllDigits(s)
    ensures n >= 10 ==> |s| >= 2
    ensures s[0] != '0' || n == 0
    decreases n
  {
    if n < 10 then [DigitChar(n)] else Dec(n / 10) + [DigitChar(n % 10)]
  }

  lemma {:induction false} ParseDecOfDec(n: nat)
    ensures ParseDec(Dec(n)) == n
    decreases n
  {
    if n >= 10 {
      var s := Dec(n);
      assert s[..|s| - 1] == Dec(n / 10);
      ParseDecOfDec(n / 10);
    }
  }

  /** Distinct numbers have distinct renderings, so an index embedded in a
      file name identifies it. */
  lemma DecInjective(m: nat, n: nat)
    ensures Dec(m) == Dec(n) ==> m == n
  {
    ParseDecOfDec(m);
    ParseDecOfDec(n);
  }

  function Pow10(w: nat): (p: nat)
    ensures p >= 1
  {
    if w == 0 then 1 else 10 * Pow10(w - 1)
  }

  /** `n` rendered in exactly `w` digits with leading zeros (`%02d`, `%04d`). */
  function Fixed(n: nat, w: nat): (s: string)
    requires n < Pow10(w)
    ensures |s| == w && AllDigits(s)
    decreases w
  {
    if w == 0 then [] else Fixed(n / 10, w - 1) + [DigitChar(n % 10)]
  }

  lemma {:induction false} ParseDecOfFixed(n: nat, w: nat)
    requires n < Pow10(w)
    ensures ParseDec(Fixed(n, w)) == n
    decreases w
  {
    if w > 0 {
      var s := Fixed(n, w);
      assert s[..|s| - 1] == Fixed(n / 10, w - 1);
      ParseDecOfFixed(n / 10, w - 1);
    }
  }
}

=== FILE: filenames.dfy ===
/** The filename deriver `_safe_filename_from_url`: the last component of a
    URL's path with unsafe characters replaced, or a SHA-1 based fallback
    name when the path has no last component. Paths follow POSIX rules:
    `/` is the only separator. */
module Filenames {

  /** A URL as `urllib.parse.urlparse` splits it, reduced to the parts the
      harvester reads: the whole string, the network location and the path
      (query, fragment and parameters are not part of `path`). */
  datatype Url = Url(full: string, netloc: string, path: string)

  predicate IsHexDigit(c: char) {
    '0' <= c <= '9' || 'a' <= c <= 'f'
  }

  /** What `hashlib.sha1(...).hexdigest()` returns: forty lower-case hex digits. */
  type HexDigest = s: string | |s| == 40 && forall k | 0 <= k < |s| :: IsHexDigit(s[k])
    witness seq(40, _ => '0')

  /** The characters of the class `[\\/:*?"<>|]` that the deriver replaces. */
  predicate Unsafe(c: char) {
    c == '\\' || c == '/' || c == ':' || c == '*' || c == '?'
    || c == '\"' || c == '<' || c == '>' || c == '|'
  }

  predicate NoUnsafe(s: string) {
    forall k | 0 <= k < |s| :: !Unsafe(s[k])
  }

  /** `re.sub(r"[\\/:*?\"<>|]", "_", name)`, one character at a time. */
  function Sanitize(name: string): (r: string)
    ensures |r| == |name|
    ensures NoUnsafe(r)
    ensures forall k | 0 <= k < |name| :: Unsafe(name[k]) ==> r[k] == '_'
    ensures forall k | 0 <= k < |name| :: !Unsafe(name[k]) ==> r[k] == name[k]
    decreases |name|
  {
    if name == [] then []
    else [if Unsafe(name[0]) then '_' else name[0]] + Sanitize(name[1..])
  }

  /** A name with no unsafe character passes through unchanged, and only such
      a name does; in particular sanitizing twice is sanitizing once. */
  lemma SanitizeFixedPoints(name: string)
    ensures Sanitize(name) == name <==> NoUnsafe(name)
    ensures Sanitize(Sanitize(name)) == Sanitize(name)
  {
    if NoUnsafe(name) {
      assert Sanitize(name) == name;
    }
    var once := Sanitize(name);
    assert Sanitize(once) == once;
  }

  /** Index where the last `/`-separated segment of `p` begins. */
  function SegmentStart(p: string): (k: nat)
    ensures k <= |p|
    decreases |p|
  {
    if p == [] || p[|p| - 1] == '/' then |p| else SegmentStart(p[..|p| - 1])
  }

  /** The last segment starts right after a separator (or at the start) and
      contains none. */
  lemma {:induction false} SegmentStartSpec(p: string)
    ensures var k := SegmentStart(p);
      && (k == 0 || p[k - 1] == '/')
      && (forall i | k <= i < |p| :: p[i] != '/')
    decreases |p|
  {
    if p != [] && p[|p| - 1] != '/' {
      SegmentStartSpec(p[..|p| - 1]);
    }
  }

  /** A path component that `PurePosixPath` keeps: non-empty, not `.`,
      without a separator. */
  predicate IsComponent(s: string) {
    s != [] && s != "." && forall k | 0 <= k < |s| :: s[k] != '/'
  }

  /** `PurePosixPath(p).name`: the last segment of `p` that is neither empty
      nor `.`, or the empty string when there is none. */
  function PathName(p: string): string
    decreases |p|
  {
    var k := SegmentStart(p);
    var segment := p[k..];
    if segment != [] && segment != "." then segment
    else if k == 0 then []
    else PathName(p[..k - 1])
  }

  /** The name is empty or a single component. */
  lemma {:induction false} PathNameIsComponent(p: string)
    ensures PathName(p) == [] || IsComponent(PathName(p))
    decreases |p|
  {
    var k := SegmentStart(p);
    SegmentStartSpec(p);
    if !(p[k..] != [] && p[k..] != ".") && k != 0 {
      PathNameIsComponent(p[..k - 1]);
    }
  }

  /** A component after the last separator is the name. */
  lemma PathNameOfLastComponent(dir: string, component: string)
    requires IsComponent(component)
    ensures PathName(component) == component
    ensures PathName(dir + "/" + component) == component
  {
    var p := dir + "/" + component;
    var k := SegmentStart(p);
    SegmentStartSpec(p);
    SegmentStartSpec(component);
    assert p[|dir|] == '/';
    assert k == |dir| + 1;
    assert p[k..] == component;
    assert SegmentStart(component) == 0;
  }

  /** A trailing `/` or `/.` does not change the name, so `/a/b/` names `b`. */
  lemma PathNameIgnoresTrailer(p: string)
    ensures PathName(p + "/") == PathName(p)
    ensures PathName(p + "/.") == PathName(p)
  {
    var q := p + "/";
    assert SegmentStart(q) == |q|;
    assert q[..|q| - 1] == p;
    var r := p + "/.";
    var k := SegmentStart(r);
    SegmentStartSpec(r);
    assert r[|p|] == '/';
    assert k == |p| + 1;
    assert r[k..] == ".";
    assert r[..k - 1] == p;
  }

  /** Position `k` of `p` is part of a segment the name ignores: a separator,
      or a lone `.` between separators. */
  predicate Ignored(p: string, k: int)
    requires 0 <= k < |p|
  {
    p[k] == '/'
    || (p[k] == '.' && (k == 0 || p[k - 1] == '/') && (k + 1 == |p| || p[k + 1] == '/'))
  }

  /** The name is empty exactly when every segment of the path is empty or
      `.`: for `""`, `/`, `/./`, `//` and the like. */
  lemma {:induction false} PathNameEmpty(p: string)
    ensures PathName(p) == [] <==> forall k | 0 <= k < |p| :: Ignored(p, k)
    decreases |p|
  {
    var k := SegmentStart(p);
    SegmentStartSpec(p);
    var segment := p[k..];
    if segment != [] && segment != "." {
      if segment[0] != '.' {
        assert !Ignored(p, k);
      } else {
        assert |segment| >= 2;
        assert !Ignored(p, k);
      }
    } else if k == 0 {
      assert p == segment;
    } else {
      var q := p[..k - 1];
      PathNameEmpty(q);
      forall i | 0 <= i < |q|
        ensures Ignored(q, i) <==> Ignored(p, i)
      {
        IgnoredBeforeSeparator(p, q, i);
      }
      forall i | k - 1 <= i < |p|
        ensures Ignored(p, i)
      {
        if i >= k {
          assert p[i] == segment[i - k];
        }
      }
    }
  }

  /** Before a separator, a position is ignored in the path exactly when it
      is ignored in the part of the path that ends there. */
  lemma IgnoredBeforeSeparator(p: string, q: string, i: int)
    requires |q| < |p| && q == p[..|q|] && p[|q|] == '/'
    requires 0 <= i < |q|
    ensures Ignored(q, i) <==> Ignored(p, i)
  {
    assert p[i] == q[i];
    if i > 0 {
      assert p[i - 1] == q[i - 1];
    }
    if i + 1 < |q| {
      assert p[i + 1] == q[i + 1];
    }
  }

  /** The deriver's result for the URL `u`, with `sha1` standing for the
      hex digest of the URL's UTF-8 encoding. It is never empty and never
      contains an unsafe character, so it names one file in the output
      directory whatever the URL. */
  function SafeFilename(u: Url, sha1: string -> HexDigest): (name: string)
    ensures name != []
    ensures NoUnsafe(name)
  {
    var last := PathName(u.path);
    if last == [] then "image_" + sha1(u.full) + ".jpg" else Sanitize(last)
  }

  /** A URL whose path has a last component is named after that component,
      character for character, with only the unsafe characters replaced;
      the query and the rest of the URL play no part. */
  lemma NamedAfterComponent(u: Url, v: Url, sha1: string -> HexDigest)
    requires PathName(u.path) != []
    ensures var name, last := SafeFilename(u, sha1), PathName(u.path);
      |name| == |last|
      && (forall k | 0 <= k < |last| :: name[k] == if Unsafe(last[k]) then '_' else last[k])
    ensures v.path == u.path ==> SafeFilename(v, sha1) == SafeFilename(u, sha1)
    ensures NoUnsafe(PathName(u.path)) ==> SafeFilename(u, sha1) == PathName(u.path)
  {
    SanitizeFixedPoints(PathName(u.path));
  }

  /** A URL whose path has no last component gets `image_<sha1 of the whole
      URL>.jpg`, which depends on every character of the URL, query included. */
  lemma FallbackName(u: Url, sha1: string -> HexDigest)
    requires PathName(u.path) == []
    ensures SafeFilename(u, sha1) == "image_" + sha1(u.full) + ".jpg"
    ensures |SafeFilename(u, sha1)| == 50
  {
  }
}

=== FILE: folder.dfy ===
/** The output location: the base output directory, or a subdirectory of it
    named `images_%Y%m%d_%H%M%S` after the run's start time. The clock is a
    parameter. */
module OutputFolder {
  import opened Options
  import opened Digits

  /** The fields of a `datetime` that the folder name shows. */
  datatype Timestamp = Timestamp(year: int, month: int, day: int, hour: int, minute: int, second: int)

  /** Field ranges a `datetime` guarantees, with four-digit years. */
  predicate Valid(t: Timestamp) {
    && 1000 <= t.year <= 9999
    && 1 <= t.month <= 12
    && 1 <= t.day <= 31
    && 0 <= t.hour < 24
    && 0 <= t.minute < 60
    && 0 <= t.second < 60
  }

  /** `%Y%m%d`: the date as eight digits. */
  function DateDigits(t: Timestamp): (s: string)
    requires Valid(t)
    ensures |s| == 8
  {
    Fixed(t.year, 4) + Fixed(t.month, 2) + Fixed(t.day, 2)
  }

  /** `%H%M%S`: the time of day as six digits. */
  function TimeDigits(t: Timestamp): (s: string)
    requires Valid(t)
    ensures |s| == 6
  {
    Fixed(t.hour, 2) + Fixed(t.minute, 2) + Fixed(t.second, 2)
  }

  /** `now.strftime('images_%Y%m%d_%H%M%S')`: always 22 characters. */
  function DatedName(t: Timestamp): (name: string)
    requires Valid(t)
    ensures |name| == 22
  {
    "images_" + DateDigits(t) + "_" + TimeDigits(t)
  }

  /** Reads three digit fields, of widths `a`, `b` and the rest, as numbers. */
  function ParseFields(s: string, a: nat, b: nat): Option<(nat, nat, nat)> {
    if a + b <= |s| && AllDigits(s[..a]) && AllDigits(s[a..a + b]) && AllDigits(s[a + b..])
    then Some((ParseDec(s[..a]), ParseDec(s[a..a + b]), ParseDec(s[a + b..])))
    else None
  }

  /** Reads the timestamp back from a dated folder name. */
  function ParseDatedName(s: string): Option<Timestamp> {
    if |s| == 22 && s[..7] == "images_" && s[15] == '_' then
      match (ParseFields(s[7..15], 4, 2), ParseFields(s[16..], 2, 2))
      case (Some((y, mo, d)), Some((h, mi, se))) => Some(Timestamp(y, mo, d, h, mi, se))
      case _ => None
    else None
  }

  lemma Fields3(a: string, b: string, c: string)
    ensures (a + b + c)[..|a|] == a
    ensures (a + b + c)[|a|..|a| + |b|] == b
    ensures (a + b + c)[|a| + |b|..] == c
  {
  }

  /** Three zero-padded fields read back as the numbers they render. */
  lemma ParseFieldsOfFixed(x: nat, y: nat, z: nat, a: nat, b: nat, c: nat)
    requires x < Pow10(a) && y < Pow10(b) && z < Pow10(c)
    ensures ParseFields(Fixed(x, a) + Fixed(y, b) + Fixed(z, c), a, b) == Some((x, y, z))
  {
    Fields3(Fixed(x, a), Fixed(y, b), Fixed(z, c));
    ParseDecOfFixed(x, a);
    ParseDecOfFixed(y, b);
    ParseDecOfFixed(z, c);
  }

  /** The folder name records every field of the start time: it reads back
      as the timestamp it was made from. */
  lemma DatedNameRoundTrip(t: Timestamp)
    requires Valid(t)
    ensures ParseDatedName(DatedName(t)) == Some(t)
  {
    DatedNameLayout(t);
    ParseFieldsOfFixed(t.year, t.month, t.day, 4, 2, 2);
    ParseFieldsOfFixed(t.hour, t.minute, t.second, 2, 2, 2);
  }

  /** Where the date and the time sit in the folder name. */
  lemma DatedNameLayout(t: Timestamp)
    requires Valid(t)
    ensures var s := DatedName(t);
      s[..7] == "images_" && s[7..15] == DateDigits(t) && s[15] == '_' && s[16..] == TimeDigits(t)
  {
    NameLayout(DateDigits(t), TimeDigits(t));
  }

  lemma NameLayout(date: string, time: string)
    requires |date| == 8
    ensures var s := "images_" + date + "_" + time;
      s[..7] == "images_" && s[7..15] == date && s[15] == '_' && s[16..] == time
  {
    var s := "images_" + date + "_" + time;
    assert s == "images_" + date + ("_" + time);
    Fields3("images_", date, "_" + time);
    assert s[16..] == time;
  }

  /** Two runs get different dated folders exactly when they start in
      different seconds; two runs within one second share a folder. */
  lemma DatedNamesDistinct(t: Timestamp, t': Timestamp)
    requires Valid(t) && Valid(t')
    ensures DatedName(t) == DatedName(t') <==> t == t'
  {
    DatedNameRoundTrip(t);
    DatedNameRoundTrip(t');
  }

  /** The directory the run writes into, as path components below the
      current directory: the base, or the base plus the dated folder. */
  function OutputPath(base: seq<string>, dated: bool, now: Timestamp): (path: seq<string>)
    requires dated ==> Valid(now)
    ensures dated ==> |path| == |base| + 1 && path[..|base|] == base && ParseDatedName(path[|base|]) == Some(now)
    ensures !dated ==> path == base
  {
    if dated then
      DatedNameRoundTrip(now);
      base + [DatedName(now)]
    else base
  }
}

=== FILE: harvest.dfy ===
/** The harvest orchestrator `download_images_from_linked_pages` as a pure
    function. Network, HTML parsing, URL joining and hashing are parameters
    (`Web`); the result lists the files the run creates, in the order it
    creates them, together with the links it counted and the pages it
    scanned. */
module Harvest {
  import opened Options
  import opened Filenames
  import opened Classifier
  import opened Naming

  /** An `img` tag: its `src` and `data-src` attributes, either of which may
      be missing. */
  datatype ImgTag = ImgTag(src: Option<string>, dataSrc: Option<string>)

  /** What the HTML parser finds on a page: its `img` tags and the `href`
      values of its `a` tags that carry one, in document order. */
  datatype Page = Page(imgs: seq<ImgTag>, hrefs: seq<string>)

  /** Outcome of one GET. `Unreachable`: the request or `raise_for_status`
      raised a `RequestException`. `Fetched`: headers arrived; `bodyOk` is
      false when reading the body raises one; `page` is what parsing the body
      as HTML yields. */
  datatype Response =
    | Unreachable
    | Fetched(contentType: Option<string>, bodyOk: bool, page: Page)

  /** The outside world of one run: GET by URL, `urljoin` followed by
      `urlparse`, and the SHA-1 hex digest of a URL. */
  datatype Web = Web(fetch: string -> Response, join: (string, string) -> Url, sha1: string -> HexDigest)

  datatype Request = Request(root: Url, sameDomain: bool, maxLinks: Option<int>)

  /** The page an `img` tag was found on. */
  datatype Scope = RootPage | LinkedPage(link: nat)

  function ScopeTag(scope: Scope, idx: nat): (t: Tag)
    ensures t.LinkOf() == (if scope.RootPage? then 0 else scope.link)
    ensures t.IndexOf() == idx
    ensures t.Direct? == false
  {
    match scope
    case RootPage => Root(idx)
    case LinkedPage(j) => OnPage(j, idx)
  }

  /** One file the run creates: its tag, the URL whose body fills it, the
      derived base name, and whether the body arrived whole (a failure while
      streaming leaves a truncated file behind). */
  datatype Write = Write(tag: Tag, source: string, base: string, complete: bool) {
    function Name(): string {
      FileName(tag, base)
    }
  }

  /** A counted link and how it was classified. */
  datatype Route = Route(url: Url, kind: Kind)

  /** Why the link loop ended: it ran out of links, the link budget was
      exceeded (`break`), or reading a linked page's body raised, which the
      harvester does not catch and which therefore ends the call with an
      exception. */
  datatype Stop = Exhausted | BudgetExceeded | PageBodyFailed

  /** What the link loop produced: counted links in order (the j-th has
      `link_count` j), files created, link numbers of pages parsed. */
  datatype LinkRun = LinkRun(routes: seq<Route>, files: seq<Write>, scanned: seq<nat>, stop: Stop)

  datatype Outcome =
    | RootFailed
    | Harvested(rootFiles: seq<Write>, links: LinkRun)
  {
    function Files(): seq<Write>
      requires Harvested?
    {
      rootFiles + links.files
    }
  }

  /** `img_tag.get('src') or img_tag.get('data-src')`, followed by the skip
      of a tag for which that is missing or empty. */
  function ImageSource(t: ImgTag): (r: Option<string>)
    ensures r.Some? <==> (t.src.Some? && t.src.value != []) || (t.dataSrc.Some? && t.dataSrc.value != [])
    ensures r.Some? ==> r.value != [] && (r == t.src || r == t.dataSrc)
    ensures t.src.Some? && t.src.value != [] ==> r == t.src
  {
    if t.src.Some? && t.src.value != [] then t.src
    else if t.dataSrc.Some? && t.dataSrc.value != [] then t.dataSrc
    else None
  }

  /** The body of one image-loop iteration: the file written for the `img`
      tag `t` at 1-based position `idx` of the page at URL `page`, if any. */
  function SaveImage(web: Web, page: string, t: ImgTag, scope: Scope, idx: nat): (w: Option<Write>)
    ensures w.Some? <==> ImageSource(t).Some? && web.fetch(web.join(page, ImageSource(t).value).full).Fetched?
    ensures w.Some? ==> var u := web.join(page, ImageSource(t).value);
      && w.value.tag == ScopeTag(scope, idx)
      && w.value.source == u.full
      && w.value.base == SafeFilename(u, web.sha1)
      && w.value.complete == web.fetch(u.full).bodyOk
  {
    match ImageSource(t)
    case None => None
    case Some(src) =>
      var u := web.join(page, src);
      match web.fetch(u.full)
      case Unreachable => None
      case Fetched(_, bodyOk, _) => Some(Write(ScopeTag(scope, idx), u.full, SafeFilename(u, web.sha1), bodyOk))
  }

  /** The file written, as a sequence of at most one. */
  function Present(w: Option<Write>): (ws: seq<Write>)
    ensures w.None? ==> ws == []
    ensures w.Some? ==> ws == [w.value]
  {
    if w.Some? then [w.value] else []
  }

  /** The image loop over `tags` with loop body `save`, the first tag having
      position `next`: each tag is attempted at its own position, and only
      attempts that yield a file contribute one. */
  function ImageLoop(save: (ImgTag, nat) -> Option<Write>, tags: seq<ImgTag>, next: nat): seq<Write>
    decreases |tags|
  {
    if tags == [] then []
    else Present(save(tags[0], next)) + ImageLoop(save, tags[1..], next + 1)
  }

  /** The body of the harvester's image loop for the page at URL `page`. */
  function ImageBody(web: Web, page: string, scope: Scope): (ImgTag, nat) -> Option<Write> {
    (t: ImgTag, idx: nat) => SaveImage(web, page, t, scope, idx)
  }

  /** The image loop of the page at URL `page`. */
  function SaveImages(web: Web, page: string, tags: seq<ImgTag>, scope: Scope, next: nat): seq<Write> {
    ImageLoop(ImageBody(web, page, scope), tags, next)
  }

  /** The origin filter: with `same_domain`, only links on the root's
      network location are followed. */
  predicate Passes(req: Request, u: Url) {
    !(req.sameDomain && u.netloc != req.root.netloc)
  }

  /** `max_links and link_count > max_links`: `None` and `0` are falsy and
      never stop the loop. */
  predicate Exceeds(maxLinks: Option<int>, count: nat) {
    maxLinks.Some? && maxLinks.value != 0 && count > maxLinks.value
  }

  /** What one iteration of the link loop does with link `u` when `count`
      links have been counted: `continue` without counting it, count it and
      `break` (or raise), or count it and go on to the next link. */
  datatype Step =
    | Skip
    | Last(route: Route, files: seq<Write>, stop: Stop)
    | Next(route: Route, files: seq<Write>, scanned: seq<nat>)

  /** The body of the link loop for link `u`. */
  function LinkStep(web: Web, req: Request, u: Url, count: nat): (s: Step)
    ensures s.Skip? <==> !Passes(req, u) || web.fetch(u.full).Unreachable?
    ensures !s.Skip? ==> s.route == Route(u, Classify(ContentTypeOf(web.fetch(u.full).contentType), u.path))
    ensures !s.Skip? ==> (s.Last? && s.stop == BudgetExceeded <==> Exceeds(req.maxLinks, count + 1))
    ensures s.Last? && s.stop != BudgetExceeded ==>
      s.stop == PageBodyFailed && s.route.kind == HtmlPage && !web.fetch(u.full).bodyOk
    ensures !s.Skip? && s.route.kind == DirectImage ==>
      && s.files == [Write(Direct(count + 1), u.full, SafeFilename(u, web.sha1), web.fetch(u.full).bodyOk)]
      && (s.Next? ==> s.scanned == [])
    ensures !s.Skip? && s.route.kind == HtmlPage ==>
      if !Exceeds(req.maxLinks, count + 1) && web.fetch(u.full).bodyOk then
        && s.Next? && s.scanned == [count + 1]
        && s.files == SaveImages(web, u.full, web.fetch(u.full).page.imgs, LinkedPage(count + 1), 1)
      else
        && s.Last? && s.files == []
        && s.stop == (if Exceeds(req.maxLinks, count + 1) then BudgetExceeded else PageBodyFailed)
  {
    if !Passes(req, u) then Skip
    else match web.fetch(u.full)
      case Unreachable => Skip
      case Fetched(header, bodyOk, page) =>
        var j := count + 1;
        if Classify(ContentTypeOf(header), u.path) == DirectImage then
          var r := Route(u, DirectImage);
          var w := Write(Direct(j), u.full, SafeFilename(u, web.sha1), bodyOk);
          if Exceeds(req.maxLinks, j) then Last(r, [w], BudgetExceeded) else Next(r, [w], [])
        else
          var r := Route(u, HtmlPage);
          if Exceeds(req.maxLinks, j) then Last(r, [], BudgetExceeded)
          else if !bodyOk then Last(r, [], PageBodyFailed)
          else Next(r, SaveImages(web, u.full, page.imgs, LinkedPage(j), 1), [j])
  }

  /** The link loop over `links` with loop body `step`, `count` links having
      been counted so far: a skipped link leaves the count alone, a `Last`
      step ends the loop, a `Next` step counts its link and goes on. */
  function Loop(step: (Url, nat) -> Step, links: seq<Url>, count: nat): LinkRun
    decreases |links|
  {
    if links == [] then LinkRun([], [], [], Exhausted)
    else
      var s := step(links[0], count);
      if s.Skip? then Loop(step, links[1..], count)
      else if s.Last? then LinkRun([s.route], s.files, [], s.stop)
      else
        var rest := Loop(step, links[1..], count + 1);
        LinkRun([s.route] + rest.routes, s.files + rest.files, s.scanned + rest.scanned, rest.stop)
  }

  /** The body of the harvester's link loop for one run. */
  function LinkBody(web: Web, req: Request): (Url, nat) -> Step {
    (u: Url, count: nat) => LinkStep(web, req, u, count)
  }

  /** The link loop of a run over `links`. */
  function FollowLinks(web: Web, req: Request, links: seq<Url>, count: nat): LinkRun {
    Loop(LinkBody(web, req), links, count)
  }

  /** The anchors of the root page, resolved against the root URL. */
  function Anchors(web: Web, root: Url, hrefs: seq<string>): (links: seq<Url>)
    ensures |links| == |hrefs|
    ensures forall k | 0 <= k < |hrefs| :: links[k] == web.join(root.full, hrefs[k])
  {
    seq(|hrefs|, k requires 0 <= k < |hrefs| => web.join(root.full, hrefs[k]))
  }

  /** One run: fetch the root page (fatal on failure), save its images as
      `root_<i>_...`, then follow its links. */
  function Run(web: Web, req: Request): (o: Outcome)
    ensures o.RootFailed? <==> !(web.fetch(req.root.full).Fetched? && web.fetch(req.root.full).bodyOk)
  {
    match web.fetch(req.root.full)
    case Unreachable => RootFailed
    case Fetched(_, bodyOk, page) =>
      if !bodyOk then RootFailed
      else
        var rootFiles := SaveImages(web, req.root.full, page.imgs, RootPage, 1);
        var links := Anchors(web, req.root, page.hrefs);
        Harvested(rootFiles, FollowLinks(web, req, links, 0))
  }
}

=== FILE: harvest_proofs.dfy ===
/** Properties of a harvest run: which images are saved, how links are
    numbered and bounded, that direct image links are never parsed as HTML,
    and that no two files of one run share a name. */
module HarvestProofs {
  import opened Options
  import opened Filenames
  import opened Classifier
  import opened Naming
  import opened Harvest
  import opened LinkLoop

  /** What each position of the image loop would write, failures included. */
  function Attempts(save: (ImgTag, nat) -> Option<Write>, tags: seq<ImgTag>, next: nat): (a: seq<Option<Write>>)
    ensures |a| == |tags|
    ensures forall k | 0 <= k < |tags| :: a[k] == save(tags[k], next + k)
  {
    seq(|tags|, k requires 0 <= k < |tags| => save(tags[k], next + k))
  }

  /** The image loop writes exactly the files of the attempts that succeed,
      whatever happens to the other tags. */
  lemma {:induction false} ImageLoopMembers(save: (ImgTag, nat) -> Option<Write>, tags: seq<ImgTag>, next: nat)
    ensures forall w :: w in ImageLoop(save, tags, next) <==> Some(w) in Attempts(save, tags, next)
    decreases |tags|
  {
    if tags != [] {
      ImageLoopMembers(save, tags[1..], next + 1);
      var a := Attempts(save, tags, next);
      var a' := Attempts(save, tags[1..], next + 1);
      assert a == [a[0]] + a';
    }
  }

  /** `save` tags the file of a tag at position `idx` with that position on
      the page `scope`. */
  ghost predicate TagsIn(save: (ImgTag, nat) -> Option<Write>, scope: Scope) {
    forall t: ImgTag, idx: nat :: save(t, idx).Some? ==> save(t, idx).value.tag == ScopeTag(scope, idx)
  }

  /** Files of the image loop carry the page's scope and positions
      `next .. next + |tags| - 1`, in increasing order. */
  lemma {:induction false} ImageLoopTags(save: (ImgTag, nat) -> Option<Write>, scope: Scope, tags: seq<ImgTag>, next: nat)
    requires TagsIn(save, scope)
    ensures |ImageLoop(save, tags, next)| <= |tags|
    ensures forall p | 0 <= p < |ImageLoop(save, tags, next)| ::
      && ImageLoop(save, tags, next)[p].tag == ScopeTag(scope, ImageLoop(save, tags, next)[p].tag.IndexOf())
      && next <= ImageLoop(save, tags, next)[p].tag.IndexOf() < next + |tags|
    ensures Ascending(ImageLoop(save, tags, next))
    decreases |tags|
  {
    if tags != [] {
      ImageLoopTags(save, scope, tags[1..], next + 1);
      var tail := ImageLoop(save, tags[1..], next + 1);
      var here := Present(save(tags[0], next));
      var ws := ImageLoop(save, tags, next);
      assert ws == here + tail;
      forall p | 0 <= p < |ws|
        ensures ws[p].tag == ScopeTag(scope, ws[p].tag.IndexOf())
        ensures next <= ws[p].tag.IndexOf() < next + |tags|
      {
        if p >= |here| {
          assert ws[p] == tail[p - |here|];
        }
      }
      forall p, q | 0 <= p < q < |ws|
        ensures Before(ws[p].tag, ws[q].tag)
      {
        if p < |here| {
          assert ws[q] == tail[q - 1];
        } else {
          assert ws[p] == tail[p - |here|] && ws[q] == tail[q - |here|];
        }
      }
    }
  }

  /** The harvester's image loop body tags each file with its position. */
  lemma ImageBodyTags(web: Web, page: string, scope: Scope)
    ensures TagsIn(ImageBody(web, page, scope), scope)
  {
    forall t: ImgTag, idx: nat | ImageBody(web, page, scope)(t, idx).Some?
      ensures ImageBody(web, page, scope)(t, idx).value.tag == ScopeTag(scope, idx)
    {
      assert ImageBody(web, page, scope)(t, idx) == SaveImage(web, page, t, scope, idx);
    }
  }

  /** The images of scanned page `j` are `<j>_<i>_` files in position order. */
  lemma PageImagesOk(web: Web, page: string, tags: seq<ImgTag>, j: nat)
    ensures var ws := SaveImages(web, page, tags, LinkedPage(j), 1);
      && Ascending(ws)
      && (forall p | 0 <= p < |ws| :: ws[p].tag == OnPage(j, ws[p].tag.IndexOf()))
  {
    var ws := SaveImages(web, page, tags, LinkedPage(j), 1);
    ImageBodyTags(web, page, LinkedPage(j));
    ImageLoopTags(ImageBody(web, page, LinkedPage(j)), LinkedPage(j), tags, 1);
  }

  /** One counted step of the harvester's link loop has the shape the loop
      lemmas assume: a direct image link yields one `link_<j>_direct_` file
      holding its own body and scans nothing; an HTML page, unless the loop
      breaks or raises on it, is scanned as page `j` and yields `<j>_<i>_`
      files in position order. */
  lemma LinkStepOk(web: Web, req: Request, u: Url, count: nat)
    ensures StepOk(LinkStep(web, req, u, count), u, count)
  {
    var s := LinkStep(web, req, u, count);
    if !s.Skip? {
      var resp := web.fetch(u.full);
      var j := count + 1;
      if s.route.kind == DirectImage {
        assert s.files == [Write(Direct(j), u.full, SafeFilename(u, web.sha1), resp.bodyOk)];
      } else if s.Next? {
        var ws := SaveImages(web, u.full, resp.page.imgs, LinkedPage(j), 1);
        assert s == Next(Route(u, HtmlPage), ws, [j]);
        PageImagesOk(web, u.full, resp.page.imgs, j);
      } else {
        assert s.files == [];
      }
    }
  }

  lemma LinkBodyWellFormed(web: Web, req: Request)
    ensures WellFormed(LinkBody(web, req))
  {
    forall u: Url, count: nat
      ensures StepOk(LinkBody(web, req)(u, count), u, count)
    {
      LinkStepOk(web, req, u, count);
    }
  }

  /** The links the harvester's link loop counts: those that pass the origin filter
      and whose GET succeeds. */
  function Admits(web: Web, req: Request): Url -> bool {
    (u: Url) => Passes(req, u) && web.fetch(u.full).Fetched?
  }

  /** Reference definition of the counted links: the admitted links of
      `links`, in document order. */
  function Admitted(web: Web, req: Request, links: seq<Url>): seq<Url> {
    Filter(Admits(web, req), links)
  }

  /** The counted link `r` was fetched and its kind is the classifier's
      verdict on its response. */
  predicate Classified(web: Web, r: Route) {
    && web.fetch(r.url.full).Fetched?
    && r.kind == Classify(ContentTypeOf(web.fetch(r.url.full).contentType), r.url.path)
  }

  /** The files of `ws` that carry tag `t`, in order. */
  function WithTag(ws: seq<Write>, t: Tag): seq<Write>
    decreases |ws|
  {
    if ws == [] then [] else (if ws[0].tag == t then [ws[0]] else []) + WithTag(ws[1..], t)
  }

  /** `WithTag` keeps exactly the files with the tag. */
  lemma {:induction false} WithTagMembers(ws: seq<Write>, t: Tag)
    ensures forall w :: w in WithTag(ws, t) <==> w in ws && w.tag == t
    decreases |ws|
  {
    if ws != [] {
      WithTagMembers(ws[1..], t);
      assert ws == [ws[0]] + ws[1..];
    }
  }

  lemma {:induction false} WithTagJoin(a: seq<Write>, b: seq<Write>, t: Tag)
    ensures WithTag(a + b, t) == WithTag(a, t) + WithTag(b, t)
    decreases |a|
  {
    if a == [] {
      assert a + b == b;
    } else {
      assert (a + b)[1..] == a[1..] + b;
      WithTagJoin(a[1..], b, t);
    }
  }

  lemma NoneTagged(ws: seq<Write>, t: Tag)
    requires forall w | w in ws :: w.tag != t
    ensures WithTag(ws, t) == []
  {
    WithTagMembers(ws, t);
  }

  /** The first attempt of the image loop is the only one carrying its tag. */
  lemma ImageLoopHead(save: (ImgTag, nat) -> Option<Write>, scope: Scope, tags: seq<ImgTag>, next: nat)
    requires TagsIn(save, scope)
    requires tags != []
    ensures WithTag(ImageLoop(save, tags, next), ScopeTag(scope, next)) == Present(save(tags[0], next))
  {
    var t := ScopeTag(scope, next);
    var here := Present(save(tags[0], next));
    var tail := ImageLoop(save, tags[1..], next + 1);
    assert ImageLoop(save, tags, next) == here + tail;
    WithTagJoin(here, tail, t);
    ImageLoopTags(save, scope, tags[1..], next + 1);
    forall w | w in tail
      ensures w.tag != t
    {
      var p :| 0 <= p < |tail| && tail[p] == w;
      assert w.tag.IndexOf() > next == t.IndexOf();
    }
    NoneTagged(tail, t);
  }

  /** A later tag is not carried by the first attempt's file. */
  lemma ImageLoopSkipHead(save: (ImgTag, nat) -> Option<Write>, scope: Scope, tags: seq<ImgTag>, next: nat, i: nat)
    requires TagsIn(save, scope)
    requires tags != [] && next < i
    ensures WithTag(ImageLoop(save, tags, next), ScopeTag(scope, i))
      == WithTag(ImageLoop(save, tags[1..], next + 1), ScopeTag(scope, i))
  {
    var t := ScopeTag(scope, i);
    var here := Present(save(tags[0], next));
    var tail := ImageLoop(save, tags[1..], next + 1);
    assert ImageLoop(save, tags, next) == here + tail;
    WithTagJoin(here, tail, t);
    if save(tags[0], next).Some? {
      assert here[0].tag.IndexOf() == next < t.IndexOf();
    }
    NoneTagged(here, t);
  }

  /** Position `i` of the image loop yields exactly the file of its own
      attempt: one file when that attempt succeeds, none otherwise; no other
      position carries its tag. */
  lemma {:induction false} ImageLoopPosition(save: (ImgTag, nat) -> Option<Write>, scope: Scope, tags: seq<ImgTag>, next: nat, i: nat)
    requires TagsIn(save, scope)
    requires next <= i < next + |tags|
    ensures WithTag(ImageLoop(save, tags, next), ScopeTag(scope, i)) == Present(save(tags[i - next], i))
    decreases |tags|
  {
    if i == next {
      ImageLoopHead(save, scope, tags, next);
    } else {
      ImageLoopSkipHead(save, scope, tags, next, i);
      ImageLoopPosition(save, scope, tags[1..], next + 1, i);
      assert tags[1..][i - (next + 1)] == tags[i - next];
    }
  }

  /** The `i`-th `img` tag of the root page yields a file exactly when it has
      a source and that image's GET succeeds, and then exactly one: the file
      `root_<i>_<base>` holding the joined image URL's body, with `<base>`
      derived from that URL. Tags without a source and failed fetches still
      use up their position. */
  lemma RootImageSaved(web: Web, req: Request, i: nat)
    requires web.fetch(req.root.full).Fetched? && web.fetch(req.root.full).bodyOk
    requires 1 <= i <= |web.fetch(req.root.full).page.imgs|
    ensures var t := web.fetch(req.root.full).page.imgs[i - 1];
      var saved := WithTag(Run(web, req).rootFiles, Root(i));
      && |saved| <= 1
      && (saved != [] <==> ImageSource(t).Some? && web.fetch(web.join(req.root.full, ImageSource(t).value).full).Fetched?)
      && (saved != [] ==>
            var u := web.join(req.root.full, ImageSource(t).value);
            saved[0].Name() == "root_" + Digits.Dec(i) + "_" + SafeFilename(u, web.sha1)
            && saved[0].source == u.full)
  {
    var imgs := web.fetch(req.root.full).page.imgs;
    var body := ImageBody(web, req.root.full, RootPage);
    ImageBodyTags(web, req.root.full, RootPage);
    ImageLoopPosition(body, RootPage, imgs, 1, i);
    assert body(imgs[i - 1], i) == SaveImage(web, req.root.full, imgs[i - 1], RootPage, i);
  }

  /** The anchors of the root page, resolved, when the root was fetched. */
  function RootLinks(web: Web, req: Request): seq<Url>
    requires web.fetch(req.root.full).Fetched?
  {
    Anchors(web, req.root, web.fetch(req.root.full).page.hrefs)
  }

  /** The files of a run, in the order they are created, ascend by link
      number and position. */
  lemma RunAscending(web: Web, req: Request)
    requires web.fetch(req.root.full).Fetched? && web.fetch(req.root.full).bodyOk
    ensures Ascending(Run(web, req).Files())
  {
    var o := Run(web, req);
    var page := web.fetch(req.root.full).page;
    ImageBodyTags(web, req.root.full, RootPage);
    ImageLoopTags(ImageBody(web, req.root.full, RootPage), RootPage, page.imgs, 1);
    forall p | 0 <= p < |o.rootFiles|
      ensures o.rootFiles[p].tag.LinkOf() <= 0
    {
      assert o.rootFiles[p] in o.rootFiles;
    }
    LinkBodyWellFormed(web, req);
    LoopFiles(LinkBody(web, req), RootLinks(web, req), 0);
    AscendingJoin(o.rootFiles, o.links.files, 0);
  }

  /** No two files created in one run have the same name. */
  lemma RunNamesDistinct(web: Web, req: Request)
    requires web.fetch(req.root.full).Fetched? && web.fetch(req.root.full).bodyOk
    ensures forall p, q | 0 <= p < q < |Run(web, req).Files()| ::
      Run(web, req).Files()[p].Name() != Run(web, req).Files()[q].Name()
  {
    var fs := Run(web, req).Files();
    RunAscending(web, req);
    forall p, q | 0 <= p < q < |fs|
      ensures fs[p].Name() != fs[q].Name()
    {
      assert Before(fs[p].tag, fs[q].tag);
      FileNameInjective(fs[p].tag, fs[p].base, fs[q].tag, fs[q].base);
    }
  }

  /** The admitted links are exactly the links that pass the origin filter
      and whose GET succeeds. */
  lemma AdmittedLinks(web: Web, req: Request, links: seq<Url>)
    ensures forall k | 0 <= k < |Admitted(web, req, links)| ::
      var u := Admitted(web, req, links)[k];
      u in links && Passes(req, u) && web.fetch(u.full).Fetched?
    ensures forall u | u in links && Passes(req, u) && web.fetch(u.full).Fetched? :: u in Admitted(web, req, links)
  {
    FilterKeeps(Admits(web, req), links);
  }

  /** Link numbering of a run: the j-th counted link is the j-th admitted
      anchor of the root page, so links the origin filter rejects or whose
      GET fails take no number; a run that did not stop early counted every
      admitted anchor. */
  lemma RunCounts(web: Web, req: Request)
    requires web.fetch(req.root.full).Fetched? && web.fetch(req.root.full).bodyOk
    ensures CountsPrefix(Run(web, req).links, Admitted(web, req, RootLinks(web, req)))
  {
    LinkBodyWellFormed(web, req);
    LoopCounts(LinkBody(web, req), Admits(web, req), RootLinks(web, req), 0);
  }

  /** Each counted link of a run was fetched and recorded with the
      classifier's verdict on its own response. */
  lemma RunClassified(web: Web, req: Request)
    requires web.fetch(req.root.full).Fetched? && web.fetch(req.root.full).bodyOk
    ensures forall k | 0 <= k < |Run(web, req).links.routes| :: Classified(web, Run(web, req).links.routes[k])
  {
    var body := LinkBody(web, req);
    forall u: Url, c: nat | !body(u, c).Skip?
      ensures Classified(web, body(u, c).route)
    {
    }
    LoopRoutes(body, (r: Route) => Classified(web, r), RootLinks(web, req), 0);
  }

  /** Only pages classified as HTML are scanned, in increasing link order; a
      direct image link is saved as its own body and never parsed; every
      `<j>_<i>_` file comes from a scanned page. */
  lemma RunScans(web: Web, req: Request)
    requires web.fetch(req.root.full).Fetched? && web.fetch(req.root.full).bodyOk
    ensures ScansHtml(Run(web, req).links, 0)
    ensures DirectFilesMatch(Run(web, req).links, 0)
    ensures PageFilesScanned(Run(web, req).links)
  {
    var body, links := LinkBody(web, req), RootLinks(web, req);
    LinkBodyWellFormed(web, req);
    LoopScanned(body, links, 0);
    LoopDirectFiles(body, links, 0);
    LoopPageFiles(body, links, 0);
  }

  /** What the (k+1)-th counted link of a run produced. It was fetched. As a
      direct image it gave exactly one file, `link_<j>_direct_...`, holding
      its own body, and was not parsed. As an HTML page it was scanned
      exactly when it did not exceed the budget and its body could be read,
      and then its files are exactly the image loop over that page;
      otherwise it gave no file. */
  predicate CountedLinkOutput(web: Web, req: Request, run: LinkRun, k: nat)
    requires k < |run.routes|
  {
    var r, j := run.routes[k], k + 1;
    var resp := web.fetch(r.url.full);
    && resp.Fetched?
    && (r.kind == DirectImage ==>
          && FilesOfLink(run.files, j) == [Write(Direct(j), r.url.full, SafeFilename(r.url, web.sha1), resp.bodyOk)]
          && j !in run.scanned)
    && (r.kind == HtmlPage ==>
          && (j in run.scanned <==> !Exceeds(req.maxLinks, j) && resp.bodyOk)
          && FilesOfLink(run.files, j)
             == if j in run.scanned then SaveImages(web, r.url.full, resp.page.imgs, LinkedPage(j), 1) else [])
  }

  /** Every counted link of a run produced what its kind calls for: a
      direct image link is always saved, the `(K + 1)`-th included, and an
      HTML page within the budget is scanned and its image loop run. */
  lemma RunLinkOutput(web: Web, req: Request)
    requires web.fetch(req.root.full).Fetched? && web.fetch(req.root.full).bodyOk
    ensures forall k | 0 <= k < |Run(web, req).links.routes| :: CountedLinkOutput(web, req, Run(web, req).links, k)
  {
    var body, links := LinkBody(web, req), RootLinks(web, req);
    LinkBodyWellFormed(web, req);
    LoopOutputs(body, links, 0);
    var run := Run(web, req).links;
    forall k | 0 <= k < |run.routes|
      ensures CountedLinkOutput(web, req, run, k)
    {
      assert LinkOutput(body, run, 0, k);
      var u := run.routes[k].url;
      assert body(u, 0 + k) == LinkStep(web, req, u, k);
    }
  }

  /** The i-th `img` of a scanned linked page `j`: the files tagged
      `<j>_<i>_` are exactly that image's own attempt, one file when it has
      a source and its GET succeeds, none otherwise. */
  predicate PageImageOutput(web: Web, o: Outcome, k: nat, i: nat)
    requires o.Harvested? && k < |o.links.routes|
  {
    var u := o.links.routes[k].url.full;
    web.fetch(u).Fetched? && k + 1 in o.links.scanned && 1 <= i <= |web.fetch(u).page.imgs| ==>
      WithTag(o.Files(), OnPage(k + 1, i))
      == Present(SaveImage(web, u, web.fetch(u).page.imgs[i - 1], LinkedPage(k + 1), i))
  }

  /** The files of `ws` with tag `t` are among those numbered with its link. */
  lemma {:induction false} WithTagOfLink(ws: seq<Write>, t: Tag)
    ensures WithTag(ws, t) == WithTag(FilesOfLink(ws, t.LinkOf()), t)
    decreases |ws|
  {
    if ws != [] {
      WithTagOfLink(ws[1..], t);
      var rest := FilesOfLink(ws[1..], t.LinkOf());
      if ws[0].tag.LinkOf() == t.LinkOf() {
        var kept := [ws[0]] + rest;
        assert FilesOfLink(ws, t.LinkOf()) == kept;
        assert kept[0] == ws[0] && kept[1..] == rest;
        assert WithTag(kept, t) == (if ws[0].tag == t then [ws[0]] else []) + WithTag(rest, t);
      } else {
        assert ws[0].tag != t;
        assert FilesOfLink(ws, t.LinkOf()) == rest;
      }
    }
  }

  /** Files numbered 0 carry no tag of a counted link. */
  lemma WithTagPastRoot(rootFiles: seq<Write>, linkFiles: seq<Write>, t: Tag)
    requires forall p | 0 <= p < |rootFiles| :: rootFiles[p].tag.LinkOf() <= 0
    requires t.LinkOf() >= 1
    ensures WithTag(rootFiles + linkFiles, t) == WithTag(linkFiles, t)
  {
    WithTagJoin(rootFiles, linkFiles, t);
    forall w | w in rootFiles
      ensures w.tag != t
    {
      var p :| 0 <= p < |rootFiles| && rootFiles[p] == w;
    }
    NoneTagged(rootFiles, t);
    assert [] + WithTag(linkFiles, t) == WithTag(linkFiles, t);
  }

  /** The image at position `i` of linked page `j`, located among the files
      of a whole run: the root's files are all numbered 0, so only the
      page's own image loop can carry the tag `<j>_<i>_`. */
  lemma LinkedImageFile(web: Web, rootFiles: seq<Write>, linkFiles: seq<Write>, u: string, imgs: seq<ImgTag>, j: nat, i: nat)
    requires forall p | 0 <= p < |rootFiles| :: rootFiles[p].tag.LinkOf() <= 0
    requires 1 <= j && 1 <= i <= |imgs|
    requires FilesOfLink(linkFiles, j) == SaveImages(web, u, imgs, LinkedPage(j), 1)
    ensures WithTag(rootFiles + linkFiles, OnPage(j, i)) == Present(SaveImage(web, u, imgs[i - 1], LinkedPage(j), i))
  {
    var t := ScopeTag(LinkedPage(j), i);
    assert t == OnPage(j, i);
    WithTagPastRoot(rootFiles, linkFiles, t);
    LinkImageFile(web, linkFiles, u, imgs, j, i);
  }

  lemma LinkImageFile(web: Web, linkFiles: seq<Write>, u: string, imgs: seq<ImgTag>, j: nat, i: nat)
    requires 1 <= i <= |imgs|
    requires FilesOfLink(linkFiles, j) == SaveImages(web, u, imgs, LinkedPage(j), 1)
    ensures WithTag(linkFiles, ScopeTag(LinkedPage(j), i)) == Present(SaveImage(web, u, imgs[i - 1], LinkedPage(j), i))
  {
    var save := ImageBody(web, u, LinkedPage(j));
    ImageBodyTags(web, u, LinkedPage(j));
    LoopImageFile(save, LinkedPage(j), linkFiles, imgs, i);
    assert save(imgs[i - 1], i) == SaveImage(web, u, imgs[i - 1], LinkedPage(j), i);
  }

  /** The files numbered with a link that are exactly one image loop hold,
      under each position's tag, that position's attempt. */
  lemma LoopImageFile(save: (ImgTag, nat) -> Option<Write>, scope: Scope, ws: seq<Write>, tags: seq<ImgTag>, i: nat)
    requires TagsIn(save, scope)
    requires 1 <= i <= |tags|
    requires FilesOfLink(ws, ScopeTag(scope, i).LinkOf()) == ImageLoop(save, tags, 1)
    ensures WithTag(ws, ScopeTag(scope, i)) == Present(save(tags[i - 1], i))
  {
    var t := ScopeTag(scope, i);
    WithTagOfLink(ws, t);
    assert WithTag(ws, t) == WithTag(ImageLoop(save, tags, 1), t);
    ImageLoopPosition(save, scope, tags, 1, i);
  }

  /** The image at position `i` of the `(k+1)`-th counted link, among the
      files of the root page followed by those of the link loop. */
  lemma {:induction false} PageImageOfRun(web: Web, req: Request, rootFiles: seq<Write>, links: LinkRun, k: nat, i: nat)
    requires forall p | 0 <= p < |rootFiles| :: rootFiles[p].tag.LinkOf() <= 0
    requires k < |links.routes| && CountedLinkOutput(web, req, links, k)
    ensures var u := links.routes[k].url.full;
      k + 1 in links.scanned && 1 <= i <= |web.fetch(u).page.imgs| ==>
        WithTag(rootFiles + links.files, OnPage(k + 1, i))
        == Present(SaveImage(web, u, web.fetch(u).page.imgs[i - 1], LinkedPage(k + 1), i))
  {
    var u, j := links.routes[k].url.full, k + 1;
    if j in links.scanned && 1 <= i <= |web.fetch(u).page.imgs| {
      LinkedImageFile(web, rootFiles, links.files, u, web.fetch(u).page.imgs, j, i);
    }
  }

  /** One failed or missing image on a linked page does not stop the
      others: every image of every scanned page gets its own attempt. */
  lemma RunPageImage(web: Web, req: Request)
    requires web.fetch(req.root.full).Fetched? && web.fetch(req.root.full).bodyOk
    ensures forall k: nat, i: nat | k < |Run(web, req).links.routes| :: PageImageOutput(web, Run(web, req), k, i)
  {
    var o := Run(web, req);
    RunLinkOutput(web, req);
    var root := web.fetch(req.root.full).page;
    ImageBodyTags(web, req.root.full, RootPage);
    ImageLoopTags(ImageBody(web, req.root.full, RootPage), RootPage, root.imgs, 1);
    forall p | 0 <= p < |o.rootFiles|
      ensures o.rootFiles[p].tag.LinkOf() <= 0
    {
      assert o.rootFiles[p] in o.rootFiles;
    }
    forall k: nat, i: nat | k < |o.links.routes|
      ensures PageImageOutput(web, o, k, i)
    {
      PageImageOfRun(web, req, o.rootFiles, o.links, k, i);
    }
  }

  /** A negative `max_links` is truthy and below every count: the run
      breaks on the first link it counts (a direct image is still saved)
      and scans no page. */
  lemma RunNegativeBudget(web: Web, req: Request)
    requires web.fetch(req.root.full).Fetched? && web.fetch(req.root.full).bodyOk
    requires req.maxLinks.Some? && req.maxLinks.value < 0
    ensures BrokeAtFirst(Run(web, req).links)
  {
    LinkBodyWellFormed(web, req);
    LoopNegative(LinkBody(web, req), req.maxLinks, RootLinks(web, req), 0);
  }

  /** Why the link loop of a run ended early. It breaks for the budget only
      on a counted link whose number exceeds `max_links`; it ends for an
      unreadable body only on a counted HTML page within the budget whose
      GET succeeded and whose body read raised. */
  predicate StopExplained(web: Web, req: Request, run: LinkRun) {
    && (run.stop == BudgetExceeded ==> |run.routes| >= 1 && Exceeds(req.maxLinks, |run.routes|))
    && (run.stop == PageBodyFailed ==>
          && |run.routes| >= 1
          && var r := run.routes[|run.routes| - 1];
          && r.kind == HtmlPage
          && web.fetch(r.url.full).Fetched?
          && !web.fetch(r.url.full).bodyOk
          && !Exceeds(req.maxLinks, |run.routes|))
  }

  /** A run's link loop stops early only for the budget or for a linked HTML
      page whose body cannot be read; a failed link or image fetch never
      stops it. */
  lemma RunStopReason(web: Web, req: Request)
    requires web.fetch(req.root.full).Fetched? && web.fetch(req.root.full).bodyOk
    ensures StopExplained(web, req, Run(web, req).links)
  {
    LinkBodyWellFormed(web, req);
    LoopStop(LinkBody(web, req), RootLinks(web, req), 0);
    StopOfLastStep(web, req, Run(web, req).links);
  }

  /** A loop run ended by the real loop body's step for its last counted
      link has the stop reasons that step allows. */
  lemma StopOfLastStep(web: Web, req: Request, run: LinkRun)
    requires EndedByLast(LinkBody(web, req), run, 0)
    ensures StopExplained(web, req, run)
  {
    if run.stop != Exhausted {
      var k := |run.routes| - 1;
      var u := run.routes[k].url;
      var s := LinkStep(web, req, u, k);
      assert LinkBody(web, req)(u, 0 + k) == s;
      assert s.Last? && s.stop == run.stop && s.route == run.routes[k];
    }
  }

  /** The `j`-th counted link is an HTML page within the budget whose GET
      succeeded but whose body cannot be read. */
  predicate UnreadablePage(web: Web, req: Request, r: Route, j: nat) {
    && r.kind == HtmlPage
    && web.fetch(r.url.full).Fetched?
    && !web.fetch(r.url.full).bodyOk
    && !Exceeds(req.maxLinks, j)
  }

  /** Reading the body of a linked page is not guarded, so an unreadable
      HTML page within the budget ends the run's link loop: it is the last
      counted link, and the loop stops for it. */
  lemma RunEndsAtUnreadablePage(web: Web, req: Request)
    requires web.fetch(req.root.full).Fetched? && web.fetch(req.root.full).bodyOk
    ensures forall k | 0 <= k < |Run(web, req).links.routes| && UnreadablePage(web, req, Run(web, req).links.routes[k], k + 1) ::
      k == |Run(web, req).links.routes| - 1 && Run(web, req).links.stop == PageBodyFailed
  {
    var body, links := LinkBody(web, req), RootLinks(web, req);
    LinkBodyWellFormed(web, req);
    LoopContinues(body, links, 0);
    LoopStop(body, links, 0);
    RunClassified(web, req);
    var run := Run(web, req).links;
    forall k | 0 <= k < |run.routes| && UnreadablePage(web, req, run.routes[k], k + 1)
      ensures k == |run.routes| - 1 && run.stop == PageBodyFailed
    {
      UnreadableEnds(web, req, run, k);
    }
  }

  /** One counted link of a loop run of the real body, when it is an
      unreadable page within the budget. */
  lemma UnreadableEnds(web: Web, req: Request, run: LinkRun, k: nat)
    requires ContinuedBeforeLast(LinkBody(web, req), run, 0) && EndedByLast(LinkBody(web, req), run, 0)
    requires k < |run.routes| && Classified(web, run.routes[k])
    requires UnreadablePage(web, req, run.routes[k], k + 1)
    ensures k == |run.routes| - 1 && run.stop == PageBodyFailed
  {
    var u := run.routes[k].url;
    var s := LinkStep(web, req, u, k);
    assert LinkBody(web, req)(u, 0 + k) == s;
    assert !s.Skip? && s.route.kind == HtmlPage;
    assert s.Last? && s.stop == PageBodyFailed;
  }

  /** With `max_links` `None` or `0`, the run counts every admitted anchor,
      in order, unless a linked HTML page's body cannot be read; then it
      counts them up to that page. */
  lemma RunUnbounded(web: Web, req: Request)
    requires web.fetch(req.root.full).Fetched? && web.fetch(req.root.full).bodyOk
    requires req.maxLinks.None? || req.maxLinks == Some(0)
    ensures CountsPrefix(Run(web, req).links, Admitted(web, req, RootLinks(web, req)))
    ensures |Run(web, req).links.routes| == |Admitted(web, req, RootLinks(web, req))|
            || Run(web, req).links.stop == PageBodyFailed
    ensures StopExplained(web, req, Run(web, req).links)
  {
    RunCounts(web, req);
    RunBudget(web, req);
    RunStopReason(web, req);
  }

  /** With `max_links = K > 0`: at most `K + 1` links are counted and the run
      stops right after the `(K + 1)`-th; at most `K` pages are scanned; page
      images come from the first `K` links only, and the `(K + 1)`-th link
      yields a file only as a direct image. With `None` or `0` the loop is
      never cut short by the budget. */
  lemma RunBudget(web: Web, req: Request)
    requires web.fetch(req.root.full).Fetched? && web.fetch(req.root.full).bodyOk
    ensures req.maxLinks.Some? && req.maxLinks.value > 0 ==>
      && WithinBudget(Run(web, req).links, 0, req.maxLinks.value)
      && |Run(web, req).links.scanned| <= req.maxLinks.value
    ensures req.maxLinks.None? || req.maxLinks == Some(0) ==> Run(web, req).links.stop != BudgetExceeded
  {
    var body, links := LinkBody(web, req), RootLinks(web, req);
    LinkBodyWellFormed(web, req);
    if req.maxLinks.Some? && req.maxLinks.value > 0 {
      LoopBudget(body, req.maxLinks, links, 0);
      LoopScanned(body, links, 0);
      var run := Run(web, req).links;
      IncreasingWithin(run.scanned, 0, req.maxLinks.value);
    }
    if req.maxLinks.None? || req.maxLinks == Some(0) {
      LoopUnbounded(body, links, 0);
    }
  }
}

=== FILE: loop_proofs.dfy ===
/** Properties of the link loop that hold for any loop body meeting a few
    per-link conditions. The body the run uses is shown to meet them in
    `HarvestProofs`. */
module LinkLoop {
  import opened Options
  import opened Filenames
  import opened Classifier
  import opened Naming
  import opened Harvest

  /** File order: by link number (root first), then by position on the page. */
  predicate Before(a: Tag, b: Tag) {
    a.LinkOf() < b.LinkOf() || (a.LinkOf() == b.LinkOf() && a.IndexOf() < b.IndexOf())
  }

  predicate Ascending(ws: seq<Write>) {
    forall p, q | 0 <= p < q < |ws| :: Before(ws[p].tag, ws[q].tag)
  }

  /** Two ascending runs of files, the second with higher link numbers, make
      an ascending run. */
  lemma AscendingJoin(a: seq<Write>, b: seq<Write>, j: nat)
    requires Ascending(a) && Ascending(b)
    requires forall p | 0 <= p < |a| :: a[p].tag.LinkOf() <= j
    requires forall p | 0 <= p < |b| :: b[p].tag.LinkOf() > j
    ensures Ascending(a + b)
  {
    var ab := a + b;
    forall p, q | 0 <= p < q < |ab|
      ensures Before(ab[p].tag, ab[q].tag)
    {
      if q < |a| {
        assert ab[p] == a[p] && ab[q] == a[q];
      } else if p >= |a| {
        assert ab[p] == b[p - |a|] && ab[q] == b[q - |a|];
      } else {
        assert ab[p] == a[p] && ab[q] == b[q - |a|];
      }
    }
  }

  /** The links of `links` that `keep` admits, in order. */
  function Filter(keep: Url -> bool, links: seq<Url>): (kept: seq<Url>)
    decreases |links|
  {
    if links == [] then []
    else (if keep(links[0]) then [links[0]] else []) + Filter(keep, links[1..])
  }

  /** A filter keeps a subsequence: no more links than it is given, each of
      them one of the given links and admitted, and every admitted link. */
  lemma {:induction false} FilterKeeps(keep: Url -> bool, links: seq<Url>)
    ensures |Filter(keep, links)| <= |links|
    ensures forall k | 0 <= k < |Filter(keep, links)| :: Filter(keep, links)[k] in links && keep(Filter(keep, links)[k])
    ensures forall u | u in links && keep(u) :: u in Filter(keep, links)
    decreases |links|
  {
    if links != [] {
      FilterKeeps(keep, links[1..]);
      var kept := Filter(keep, links);
      var rest := Filter(keep, links[1..]);
      forall k | 0 <= k < |kept|
        ensures kept[k] in links && keep(kept[k])
      {
        if keep(links[0]) && k == 0 {
        } else {
          var k' := if keep(links[0]) then k - 1 else k;
          assert kept[k] == rest[k'];
          assert rest[k'] in links[1..];
        }
      }
    }
  }

  /** The shape of one counted step for link `u` taken with `count` links
      counted: it is about `u`, only a `Last` step ends the loop, its files
      carry link number `count + 1` in ascending order, a direct file copies
      `u` and comes from a direct-image step, and a page file comes from a
      step that scanned page `count + 1`, which only an HTML step does. */
  predicate StepOk(s: Step, u: Url, count: nat) {
    s.Skip? || (
      && s.route.url == u
      && (s.Last? ==> s.stop != Exhausted)
      && Ascending(s.files)
      && (s.Next? ==> s.scanned == [] || (s.scanned == [count + 1] && s.route.kind == HtmlPage))
      && (forall p | 0 <= p < |s.files| ::
            && s.files[p].tag.LinkOf() == count + 1
            && !s.files[p].tag.Root?
            && (s.files[p].tag.Direct? ==> s.route.kind == DirectImage && s.files[p].source == u.full)
            && (s.files[p].tag.OnPage? ==> s.Next? && s.scanned == [count + 1])))
  }

  /** Every step of `step` has the shape above. */
  ghost predicate WellFormed(step: (Url, nat) -> Step) {
    forall u: Url, count: nat :: StepOk(step(u, count), u, count)
  }

  /** `step` skips exactly the links `keep` rejects, whatever the count. */
  ghost predicate SkipsExactly(step: (Url, nat) -> Step, keep: Url -> bool) {
    forall u: Url, count: nat :: step(u, count).Skip? <==> !keep(u)
  }

  predicate Increasing(xs: seq<nat>) {
    forall p, q | 0 <= p < q < |xs| :: xs[p] < xs[q]
  }

  /** A strictly increasing sequence of numbers in `(lo, hi]` has at most
      `hi - lo` elements. */
  lemma {:induction false} IncreasingWithin(xs: seq<nat>, lo: nat, hi: nat)
    requires lo <= hi
    requires Increasing(xs)
    requires forall p | 0 <= p < |xs| :: lo < xs[p] <= hi
    ensures |xs| <= hi - lo
    decreases |xs|
  {
    if xs != [] {
      var rest := xs[1..];
      forall p | 0 <= p < |rest|
        ensures xs[0] < rest[p] <= hi
      {
        assert rest[p] == xs[p + 1];
      }
      IncreasingWithin(rest, xs[0], hi);
    }
  }

  /** The files of a run of the loop entered at `count` carry the numbers of
      its counted links, never the root's, and come in tag order. */
  predicate FilesNumbered(run: LinkRun, count: nat) {
    && (forall p | 0 <= p < |run.files| ::
          && count < run.files[p].tag.LinkOf() <= count + |run.routes|
          && !run.files[p].tag.Root?)
    && Ascending(run.files)
  }

  /** Each scanned page is a counted link classified as HTML, and pages are
      scanned in increasing link order. */
  predicate ScansHtml(run: LinkRun, count: nat) {
    ScannedPages(run.routes, run.scanned, count) && Increasing(run.scanned)
  }

  /** Each of `scanned` numbers one of `routes` (counted from `count + 1`)
      that was classified as HTML. */
  predicate ScannedPages(routes: seq<Route>, scanned: seq<nat>, count: nat) {
    forall p | 0 <= p < |scanned| ::
      && count < scanned[p] <= count + |routes|
      && routes[scanned[p] - count - 1].kind == HtmlPage
  }

  /** A `link_<j>_direct_...` file is the body of the j-th counted link, which
      was classified as a direct image. */
  predicate DirectFilesMatch(run: LinkRun, count: nat) {
    forall p | 0 <= p < |run.files| && run.files[p].tag.Direct? ::
      && count < run.files[p].tag.link <= count + |run.routes|
      && run.routes[run.files[p].tag.link - count - 1].kind == DirectImage
      && run.files[p].source == run.routes[run.files[p].tag.link - count - 1].url.full
  }

  /** A `<j>_<i>_...` file comes from the scanned page of the j-th link. */
  predicate PageFilesScanned(run: LinkRun) {
    forall p | 0 <= p < |run.files| && run.files[p].tag.OnPage? :: run.files[p].tag.link in run.scanned
  }

  /** The counted links are the first links of `admitted`, in order, and all
      of them when the loop ran out of links. */
  predicate CountsPrefix(run: LinkRun, admitted: seq<Url>) {
    && |run.routes| <= |admitted|
    && (forall k | 0 <= k < |run.routes| :: run.routes[k].url == admitted[k])
    && (run.stop == Exhausted ==> |run.routes| == |admitted|)
  }

  /** With budget `limit`, entered at `count`: at most `limit + 1` links are
      counted, the loop breaks exactly when the `(limit + 1)`-th is counted,
      no page above `limit` is scanned or yields page images, and a direct
      file is numbered at most `limit + 1`. */
  predicate WithinBudget(run: LinkRun, count: nat, limit: nat) {
    && count + |run.routes| <= limit + 1
    && (run.stop == BudgetExceeded <==> count + |run.routes| == limit + 1)
    && (forall p | 0 <= p < |run.scanned| :: run.scanned[p] <= limit)
    && (forall p | 0 <= p < |run.files| && run.files[p].tag.OnPage? :: run.files[p].tag.link <= limit)
    && (forall p | 0 <= p < |run.files| && run.files[p].tag.Direct? :: run.files[p].tag.link <= limit + 1)
  }

  /** The files of the loop carry the numbers of counted links, never the
      root's, and come in tag order. */
  lemma {:induction false} LoopFiles(step: (Url, nat) -> Step, links: seq<Url>, count: nat)
    requires WellFormed(step)
    ensures FilesNumbered(Loop(step, links, count), count)
    decreases |links|
  {
    if links != [] {
      var u := links[0];
      var s := step(u, count);
      assert StepOk(s, u, count);
      if s.Skip? {
        assert Loop(step, links, count) == Loop(step, links[1..], count);
        LoopFiles(step, links[1..], count);
      } else if s.Last? {
        var run := Loop(step, links, count);
        assert run == LinkRun([s.route], s.files, [], s.stop);
      } else {
        var j := count + 1;
        LoopFiles(step, links[1..], j);
        var tail := Loop(step, links[1..], j);
        var run := Loop(step, links, count);
        assert run.routes == [s.route] + tail.routes;
        assert run.files == s.files + tail.files;
        AscendingJoin(s.files, tail.files, j);
        forall p | 0 <= p < |run.files|
          ensures count < run.files[p].tag.LinkOf() <= count + |run.routes|
          ensures !run.files[p].tag.Root?
        {
          if p >= |s.files| {
            assert run.files[p] == tail.files[p - |s.files|];
          }
        }
      }
    }
  }

  /** Prefixing a counted page step keeps the scans in order and on pages. */
  lemma PagesShift(route: Route, routes: seq<Route>, scanned: seq<nat>, count: nat)
    requires ScannedPages(routes, scanned, count + 1)
    ensures ScannedPages([route] + routes, scanned, count)
  {
    var all := [route] + routes;
    forall p | 0 <= p < |scanned|
      ensures all[scanned[p] - count - 1] == routes[scanned[p] - count - 2]
    {
    }
  }

  lemma PagesCons(routes: seq<Route>, j: nat, scanned: seq<nat>, count: nat)
    requires ScannedPages(routes, scanned, count)
    requires count < j <= count + |routes| && routes[j - count - 1].kind == HtmlPage
    ensures ScannedPages(routes, [j] + scanned, count)
  {
    var all := [j] + scanned;
    forall p | 0 < p < |all|
      ensures all[p] == scanned[p - 1]
    {
    }
  }

  lemma IncreasingCons(j: nat, xs: seq<nat>)
    requires Increasing(xs)
    requires forall p | 0 <= p < |xs| :: j < xs[p]
    ensures Increasing([j] + xs)
  {
    var all := [j] + xs;
    forall p | 0 < p < |all|
      ensures all[p] == xs[p - 1]
    {
    }
  }

  lemma ScansJoin(route: Route, here: seq<nat>, count: nat, tail: LinkRun, files: seq<Write>, stop: Stop)
    requires here == [] || (here == [count + 1] && route.kind == HtmlPage)
    requires ScansHtml(tail, count + 1)
    ensures ScansHtml(LinkRun([route] + tail.routes, files, here + tail.scanned, stop), count)
  {
    PagesShift(route, tail.routes, tail.scanned, count);
    if here == [] {
      assert here + tail.scanned == tail.scanned;
    } else {
      assert here + tail.scanned == [count + 1] + tail.scanned;
      PagesCons([route] + tail.routes, count + 1, tail.scanned, count);
      IncreasingCons(count + 1, tail.scanned);
    }
  }

  /** Each scanned page is a counted link classified as HTML, and pages are
      scanned in increasing link order. */
  lemma {:induction false} LoopScanned(step: (Url, nat) -> Step, links: seq<Url>, count: nat)
    requires WellFormed(step)
    ensures ScansHtml(Loop(step, links, count), count)
    decreases |links|
  {
    if links != [] {
      var u := links[0];
      var s := step(u, count);
      assert StepOk(s, u, count);
      if s.Skip? {
        assert Loop(step, links, count) == Loop(step, links[1..], count);
        LoopScanned(step, links[1..], count);
      } else if s.Next? {
        LoopScanned(step, links[1..], count + 1);
        var tail := Loop(step, links[1..], count + 1);
        ScansJoin(s.route, s.scanned, count, tail, s.files + tail.files, tail.stop);
      }
    }
  }

  /** Prefixing a counted step keeps every direct file matched to its link. */
  lemma DirectJoin(s: Step, u: Url, count: nat, tail: LinkRun, scanned: seq<nat>, stop: Stop)
    requires !s.Skip? && StepOk(s, u, count)
    requires DirectFilesMatch(tail, count + 1)
    ensures DirectFilesMatch(LinkRun([s.route] + tail.routes, s.files + tail.files, scanned, stop), count)
  {
    var j := count + 1;
    var run := LinkRun([s.route] + tail.routes, s.files + tail.files, scanned, stop);
    forall p | 0 <= p < |run.files| && run.files[p].tag.Direct?
      ensures count < run.files[p].tag.link <= count + |run.routes|
      ensures run.routes[run.files[p].tag.link - count - 1].kind == DirectImage
      ensures run.files[p].source == run.routes[run.files[p].tag.link - count - 1].url.full
    {
      if p >= |s.files| {
        var q := p - |s.files|;
        assert run.files[p] == tail.files[q];
        var j' := tail.files[q].tag.link;
        assert run.routes[j' - count - 1] == tail.routes[j' - j - 1];
      } else {
        assert run.files[p] == s.files[p];
      }
    }
  }

  /** A `link_<j>_direct_` file holds the body of the j-th counted link,
      which was classified as a direct image. */
  lemma {:induction false} LoopDirectFiles(step: (Url, nat) -> Step, links: seq<Url>, count: nat)
    requires WellFormed(step)
    ensures DirectFilesMatch(Loop(step, links, count), count)
    decreases |links|
  {
    if links != [] {
      var u := links[0];
      var s := step(u, count);
      assert StepOk(s, u, count);
      if s.Skip? {
        assert Loop(step, links, count) == Loop(step, links[1..], count);
        LoopDirectFiles(step, links[1..], count);
      } else if s.Last? {
        var empty := LinkRun([], [], [], s.stop);
        DirectJoin(s, u, count, empty, [], s.stop);
        assert [s.route] + empty.routes == [s.route] && s.files + empty.files == s.files;
      } else {
        var tail := Loop(step, links[1..], count + 1);
        LoopDirectFiles(step, links[1..], count + 1);
        DirectJoin(s, u, count, tail, s.scanned + tail.scanned, tail.stop);
      }
    }
  }

  /** A `<j>_<i>_...` file comes from the scanned page of the j-th link. */
  lemma {:induction false} LoopPageFiles(step: (Url, nat) -> Step, links: seq<Url>, count: nat)
    requires WellFormed(step)
    ensures PageFilesScanned(Loop(step, links, count))
    decreases |links|
  {
    if links != [] {
      var u := links[0];
      var s := step(u, count);
      assert StepOk(s, u, count);
      if s.Skip? {
        assert Loop(step, links, count) == Loop(step, links[1..], count);
        LoopPageFiles(step, links[1..], count);
      } else if s.Last? {
        var run := Loop(step, links, count);
        assert run == LinkRun([s.route], s.files, [], s.stop);
      } else {
        var j := count + 1;
        LoopPageFiles(step, links[1..], j);
        var tail := Loop(step, links[1..], j);
        var run := Loop(step, links, count);
        assert run.files == s.files + tail.files;
        assert run.scanned == s.scanned + tail.scanned;
        forall p | 0 <= p < |run.files| && run.files[p].tag.OnPage?
          ensures run.files[p].tag.link in run.scanned
        {
          if p < |s.files| {
            assert run.scanned[0] == j;
          } else {
            assert run.files[p] == tail.files[p - |s.files|];
          }
        }
      }
    }
  }

  /** The files of `ws` numbered with link `j`, in order. */
  function FilesOfLink(ws: seq<Write>, j: nat): seq<Write>
    decreases |ws|
  {
    if ws == [] then [] else (if ws[0].tag.LinkOf() == j then [ws[0]] else []) + FilesOfLink(ws[1..], j)
  }

  lemma {:induction false} FilesOfLinkJoin(a: seq<Write>, b: seq<Write>, j: nat)
    ensures FilesOfLink(a + b, j) == FilesOfLink(a, j) + FilesOfLink(b, j)
    decreases |a|
  {
    if a == [] {
      assert a + b == b;
    } else {
      var head := if a[0].tag.LinkOf() == j then [a[0]] else [];
      assert (a + b)[0] == a[0];
      assert (a + b)[1..] == a[1..] + b;
      assert FilesOfLink(a + b, j) == head + FilesOfLink(a[1..] + b, j);
      FilesOfLinkJoin(a[1..], b, j);
      assert FilesOfLink(a, j) == head + FilesOfLink(a[1..], j);
      assert head + (FilesOfLink(a[1..], j) + FilesOfLink(b, j)) == (head + FilesOfLink(a[1..], j)) + FilesOfLink(b, j);
    }
  }

  /** Files all numbered `j` are all kept, files none of which is are all
      dropped. */
  lemma {:induction false} FilesOfLinkAllOrNone(ws: seq<Write>, j: nat)
    ensures (forall p | 0 <= p < |ws| :: ws[p].tag.LinkOf() == j) ==> FilesOfLink(ws, j) == ws
    ensures (forall p | 0 <= p < |ws| :: ws[p].tag.LinkOf() != j) ==> FilesOfLink(ws, j) == []
    decreases |ws|
  {
    if ws != [] {
      FilesOfLinkAllOrNone(ws[1..], j);
      assert forall p | 0 <= p < |ws[1..]| :: ws[1..][p] == ws[p + 1];
      assert ws == [ws[0]] + ws[1..];
    }
  }

  /** The step counts its link and scans that link's page. */
  predicate Scans(s: Step) {
    s.Next? && s.scanned != []
  }

  /** Every counted link of a run entered at `count` is there with all it
      produced: the step for the (k+1)-th counted link, taken with the count
      it saw, recorded exactly that route, the files numbered with it are
      exactly the files that step wrote, and its page was scanned exactly
      when the step scanned it. */
  predicate OutputPerLink(step: (Url, nat) -> Step, run: LinkRun, count: nat) {
    forall k | 0 <= k < |run.routes| :: LinkOutput(step, run, count, k)
  }

  /** The joined run of a counted step `s` and the rest of the loop. */
  function Join(s: Step, tail: LinkRun): LinkRun
    requires s.Next?
  {
    LinkRun([s.route] + tail.routes, s.files + tail.files, s.scanned + tail.scanned, tail.stop)
  }

  /** The output of link `j` in a run, as `OutputPerLink` states it. */
  predicate LinkOutput(step: (Url, nat) -> Step, run: LinkRun, count: nat, k: nat)
    requires k < |run.routes|
  {
    && !step(run.routes[k].url, count + k).Skip?
    && step(run.routes[k].url, count + k).route == run.routes[k]
    && FilesOfLink(run.files, count + k + 1) == step(run.routes[k].url, count + k).files
    && (count + k + 1 in run.scanned <==> Scans(step(run.routes[k].url, count + k)))
  }

  /** The counted step itself keeps its own output when the rest is joined. */
  lemma OutputJoinHead(step: (Url, nat) -> Step, u: Url, count: nat, tail: LinkRun)
    requires step(u, count).Next? && StepOk(step(u, count), u, count)
    requires FilesNumbered(tail, count + 1) && ScansHtml(tail, count + 1)
    ensures LinkOutput(step, Join(step(u, count), tail), count, 0)
  {
    var s := step(u, count);
    var run := Join(s, tail);
    var j := count + 1;
    FilesOfLinkJoin(s.files, tail.files, j);
    FilesOfLinkAllOrNone(s.files, j);
    FilesOfLinkAllOrNone(tail.files, j);
    assert run.routes[0] == s.route;
    forall q | 0 <= q < |tail.scanned|
      ensures tail.scanned[q] != j
    {
    }
  }

  /** A later link keeps its output from the rest of the loop. */
  lemma OutputJoinLater(step: (Url, nat) -> Step, u: Url, count: nat, tail: LinkRun, k: nat)
    requires step(u, count).Next? && StepOk(step(u, count), u, count)
    requires 0 < k <= |tail.routes|
    requires LinkOutput(step, tail, count + 1, k - 1)
    ensures LinkOutput(step, Join(step(u, count), tail), count, k)
  {
    var s := step(u, count);
    var run := Join(s, tail);
    var j := count + k + 1;
    FilesOfLinkJoin(s.files, tail.files, j);
    FilesOfLinkAllOrNone(s.files, j);
    assert run.routes[k] == tail.routes[k - 1];
    assert count + k == (count + 1) + (k - 1);
    assert j !in s.scanned;
  }

  /** Prefixing a counted step to the rest of the loop keeps each link's
      output attached to it. */
  lemma OutputJoin(step: (Url, nat) -> Step, u: Url, count: nat, tail: LinkRun)
    requires step(u, count).Next? && StepOk(step(u, count), u, count)
    requires OutputPerLink(step, tail, count + 1)
    requires FilesNumbered(tail, count + 1) && ScansHtml(tail, count + 1)
    ensures OutputPerLink(step, Join(step(u, count), tail), count)
  {
    var run := Join(step(u, count), tail);
    forall k | 0 <= k < |run.routes|
      ensures LinkOutput(step, run, count, k)
    {
      if k == 0 {
        OutputJoinHead(step, u, count, tail);
      } else {
        assert LinkOutput(step, tail, count + 1, k - 1);
        OutputJoinLater(step, u, count, tail, k);
      }
    }
  }

  /** Completeness of the loop: each counted link keeps exactly the files
      and the scan of its own step. */
  lemma {:induction false} LoopOutputs(step: (Url, nat) -> Step, links: seq<Url>, count: nat)
    requires WellFormed(step)
    ensures OutputPerLink(step, Loop(step, links, count), count)
    decreases |links|
  {
    if links != [] {
      var u := links[0];
      var s := step(u, count);
      assert StepOk(s, u, count);
      if s.Skip? {
        assert Loop(step, links, count) == Loop(step, links[1..], count);
        LoopOutputs(step, links[1..], count);
      } else if s.Last? {
        var run := Loop(step, links, count);
        assert run == LinkRun([s.route], s.files, [], s.stop);
        FilesOfLinkAllOrNone(s.files, count + 1);
        assert step(run.routes[0].url, count + 0) == s;
      } else {
        var tail := Loop(step, links[1..], count + 1);
        LoopOutputs(step, links[1..], count + 1);
        LoopFiles(step, links[1..], count + 1);
        LoopScanned(step, links[1..], count + 1);
        OutputJoin(step, u, count, tail);
        assert Loop(step, links, count) == Join(s, tail);
      }
    }
  }

  /** The loop counts the links `keep` admits, in order, up to where it
      stopped; when it ran out of links it counted every one of them. */
  lemma {:induction false} LoopCounts(step: (Url, nat) -> Step, keep: Url -> bool, links: seq<Url>, count: nat)
    requires WellFormed(step) && SkipsExactly(step, keep)
    ensures CountsPrefix(Loop(step, links, count), Filter(keep, links))
    decreases |links|
  {
    if links != [] {
      var u := links[0];
      var s := step(u, count);
      assert StepOk(s, u, count);
      var adm := Filter(keep, links);
      if s.Skip? {
        assert Loop(step, links, count) == Loop(step, links[1..], count);
        LoopCounts(step, keep, links[1..], count);
        assert adm == Filter(keep, links[1..]);
      } else {
        assert adm == [u] + Filter(keep, links[1..]);
        if s.Next? {
          LoopCounts(step, keep, links[1..], count + 1);
          var tail := Loop(step, links[1..], count + 1);
          var run := Loop(step, links, count);
          assert run.routes == [s.route] + tail.routes;
          forall k | 0 <= k < |run.routes|
            ensures run.routes[k].url == adm[k]
          {
            if k > 0 {
              assert run.routes[k] == tail.routes[k - 1];
            }
          }
        }
      }
    }
  }

  /** Every route the loop records satisfies `good` when every counted step
      does. */
  lemma {:induction false} LoopRoutes(step: (Url, nat) -> Step, good: Route -> bool, links: seq<Url>, count: nat)
    requires forall u: Url, c: nat :: !step(u, c).Skip? ==> good(step(u, c).route)
    ensures forall k | 0 <= k < |Loop(step, links, count).routes| :: good(Loop(step, links, count).routes[k])
    decreases |links|
  {
    if links != [] {
      var s := step(links[0], count);
      if s.Skip? {
        assert Loop(step, links, count) == Loop(step, links[1..], count);
        LoopRoutes(step, good, links[1..], count);
      } else if s.Next? {
        LoopRoutes(step, good, links[1..], count + 1);
        var tail := Loop(step, links[1..], count + 1);
        var run := Loop(step, links, count);
        assert run.routes == [s.route] + tail.routes;
        forall k | 0 <= k < |run.routes|
          ensures good(run.routes[k])
        {
          if k > 0 {
            assert run.routes[k] == tail.routes[k - 1];
          }
        }
      }
    }
  }

  /** `step` breaks for the budget `maxLinks` exactly on the link whose
      number exceeds it. */
  ghost predicate BreaksAt(step: (Url, nat) -> Step, maxLinks: Option<int>) {
    forall u: Url, count: nat :: !step(u, count).Skip? ==>
      ((step(u, count).Last? && step(u, count).stop == BudgetExceeded) <==> Exceeds(maxLinks, count + 1))
  }

  /** With a budget `K > 0`, entered with at most `K` links counted, the loop
      counts at most `K + 1` links, breaks exactly when it counts the
      `(K + 1)`-th, scans no page numbered above `K`, and the `(K + 1)`-th link
      yields a file only as a direct image. */
  lemma {:induction false} LoopBudget(step: (Url, nat) -> Step, maxLinks: Option<int>, links: seq<Url>, count: nat)
    requires WellFormed(step) && BreaksAt(step, maxLinks)
    requires maxLinks.Some? && maxLinks.value > 0 && count <= maxLinks.value
    ensures WithinBudget(Loop(step, links, count), count, maxLinks.value)
    decreases |links|
  {
    if links != [] {
      var u := links[0];
      var s := step(u, count);
      assert StepOk(s, u, count);
      if s.Skip? {
        assert Loop(step, links, count) == Loop(step, links[1..], count);
        LoopBudget(step, maxLinks, links[1..], count);
      } else if s.Last? {
        var run := Loop(step, links, count);
        assert run == LinkRun([s.route], s.files, [], s.stop);
      } else {
        var j := count + 1;
        LoopBudget(step, maxLinks, links[1..], j);
        var tail := Loop(step, links[1..], j);
        var run := Loop(step, links, count);
        assert run == LinkRun([s.route] + tail.routes, s.files + tail.files, s.scanned + tail.scanned, tail.stop);
        forall p | 0 <= p < |run.files|
          ensures run.files[p].tag.OnPage? ==> run.files[p].tag.link <= maxLinks.value
          ensures run.files[p].tag.Direct? ==> run.files[p].tag.link <= maxLinks.value + 1
        {
          if p >= |s.files| {
            assert run.files[p] == tail.files[p - |s.files|];
          }
        }
        forall p | 0 <= p < |run.scanned|
          ensures run.scanned[p] <= maxLinks.value
        {
          if p >= |s.scanned| {
            assert run.scanned[p] == tail.scanned[p - |s.scanned|];
          }
        }
      }
    }
  }

  /** A run that stopped early was ended by the step of its last counted
      link: that step, taken with the count it saw, was `Last`, recorded
      that route, and gave the run's reason. */
  predicate EndedByLast(step: (Url, nat) -> Step, run: LinkRun, count: nat) {
    run.stop != Exhausted ==>
      && |run.routes| >= 1
      && step(run.routes[|run.routes| - 1].url, count + |run.routes| - 1).Last?
      && step(run.routes[|run.routes| - 1].url, count + |run.routes| - 1).route == run.routes[|run.routes| - 1]
      && step(run.routes[|run.routes| - 1].url, count + |run.routes| - 1).stop == run.stop
  }

  /** Only a `Last` step ends the loop before its links run out, and that
      step is the one for the last counted link. */
  lemma {:induction false} LoopStop(step: (Url, nat) -> Step, links: seq<Url>, count: nat)
    requires WellFormed(step)
    ensures EndedByLast(step, Loop(step, links, count), count)
    decreases |links|
  {
    if links != [] {
      var u := links[0];
      var s := step(u, count);
      assert StepOk(s, u, count);
      if s.Skip? {
        assert Loop(step, links, count) == Loop(step, links[1..], count);
        LoopStop(step, links[1..], count);
      } else if s.Last? {
        assert Loop(step, links, count) == LinkRun([s.route], s.files, [], s.stop);
      } else {
        var tail := Loop(step, links[1..], count + 1);
        LoopStop(step, links[1..], count + 1);
        var run := Loop(step, links, count);
        assert run == Join(s, tail);
        if run.stop != Exhausted {
          var k := |tail.routes|;
          assert run.routes[k] == tail.routes[k - 1];
          assert count + k == count + 1 + (k - 1);
        }
      }
    }
  }

  /** Every counted link but the one that ended the run was taken by a
      `Next` step: the loop went on past it. */
  predicate ContinuedBeforeLast(step: (Url, nat) -> Step, run: LinkRun, count: nat) {
    forall k | 0 <= k < |run.routes| && (k + 1 < |run.routes| || run.stop == Exhausted) ::
      step(run.routes[k].url, count + k).Next?
  }

  /** The loop only passes a counted link when that link's step is `Next`. */
  lemma {:induction false} LoopContinues(step: (Url, nat) -> Step, links: seq<Url>, count: nat)
    requires WellFormed(step)
    ensures ContinuedBeforeLast(step, Loop(step, links, count), count)
    decreases |links|
  {
    if links != [] {
      var u := links[0];
      var s := step(u, count);
      assert StepOk(s, u, count);
      if s.Skip? {
        assert Loop(step, links, count) == Loop(step, links[1..], count);
        LoopContinues(step, links[1..], count);
      } else if s.Last? {
        assert Loop(step, links, count) == LinkRun([s.route], s.files, [], s.stop);
      } else {
        var tail := Loop(step, links[1..], count + 1);
        LoopContinues(step, links[1..], count + 1);
        var run := Loop(step, links, count);
        assert run == Join(s, tail);
        forall k | 0 <= k < |run.routes| && (k + 1 < |run.routes| || run.stop == Exhausted)
          ensures step(run.routes[k].url, count + k).Next?
        {
          if k > 0 {
            assert run.routes[k] == tail.routes[k - 1];
            assert count + k == count + 1 + (k - 1);
          }
        }
      }
    }
  }

  /** At most one link counted, and the loop broke for the budget exactly
      when one was; no page scanned. */
  predicate BrokeAtFirst(run: LinkRun) {
    && |run.routes| <= 1
    && (run.stop == BudgetExceeded <==> |run.routes| == 1)
    && run.scanned == []
  }

  /** With a negative budget every count exceeds it, so the loop breaks on
      the first link it counts, before scanning anything. */
  lemma {:induction false} LoopNegative(step: (Url, nat) -> Step, maxLinks: Option<int>, links: seq<Url>, count: nat)
    requires WellFormed(step) && BreaksAt(step, maxLinks)
    requires maxLinks.Some? && maxLinks.value < 0
    ensures BrokeAtFirst(Loop(step, links, count))
    decreases |links|
  {
    if links != [] {
      var s := step(links[0], count);
      if s.Skip? {
        assert Loop(step, links, count) == Loop(step, links[1..], count);
        LoopNegative(step, maxLinks, links[1..], count);
      } else {
        assert Exceeds(maxLinks, count + 1);
        assert s.Last? && s.stop == BudgetExceeded;
      }
    }
  }

  /** A loop whose body never breaks for the budget never stops for it. */
  lemma {:induction false} LoopUnbounded(step: (Url, nat) -> Step, links: seq<Url>, count: nat)
    requires WellFormed(step)
    requires forall u: Url, c: nat :: !step(u, c).Skip? && step(u, c).Last? ==> step(u, c).stop != BudgetExceeded
    ensures Loop(step, links, count).stop != BudgetExceeded
    decreases |links|
  {
    if links != [] {
      var s := step(links[0], count);
      if s.Skip? {
        assert Loop(step, links, count) == Loop(step, links[1..], count);
        LoopUnbounded(step, links[1..], count);
      } else if s.Next? {
        LoopUnbounded(step, links[1..], count + 1);
      }
    }
  }
}

=== FILE: naming.dfy ===
/** Names of the saved files. Each file name is a scope prefix, one or two
    decimal indices and the derived base name, joined by underscores:
    `root_<i>_<base>` for the i-th `img` tag of the root page,
    `link_<j>_direct_<base>` for the j-th counted link when it is itself an
    image, and `<j>_<i>_<base>` for the i-th `img` tag of the j-th counted
    link's page. Decimal indices contain no underscore, so `ParseFileName`
    recovers scope, indices and base name from the file name alone. */
module Naming {
  import opened Options
  import opened Digits

  datatype Tag = Root(index: nat) | Direct(link: nat) | OnPage(link: nat, index: nat) {

    /** The counted link the file comes from; 0 for the root page. */
    function LinkOf(): nat {
      match this
      case Root(_) => 0
      case Direct(j) => j
      case OnPage(j, _) => j
    }

    /** The `img` position on the page; 0 for a direct image link. */
    function IndexOf(): nat {
      match this
      case Root(i) => i
      case Direct(_) => 0
      case OnPage(_, i) => i
    }
  }

  function FileName(t: Tag, base: string): string {
    match t
    case Root(i) => "root_" + Dec(i) + "_" + base
    case Direct(j) => "link_" + Dec(j) + "_direct_" + base
    case OnPage(j, i) => Dec(j) + "_" + Dec(i) + "_" + base
  }

  /** Splits at the first underscore. */
  function SplitUnderscore(s: string): (r: Option<(string, string)>)
    ensures r.Some? ==> s == r.value.0 + "_" + r.value.1
    ensures r.Some? ==> forall k | 0 <= k < |r.value.0| :: r.value.0[k] != '_'
    decreases |s|
  {
    if s == [] then None
    else if s[0] == '_' then Some(([], s[1..]))
    else match SplitUnderscore(s[1..])
      case None => None
      case Some((a, b)) => Some(([s[0]] + a, b))
  }

  lemma {:induction false} SplitUnderscoreOf(a: string, b: string)
    requires forall k | 0 <= k < |a| :: a[k] != '_'
    ensures SplitUnderscore(a + "_" + b) == Some((a, b))
    decreases |a|
  {
    var s := a + "_" + b;
    if a == [] {
      assert s[0] == '_' && s[1..] == b;
    } else {
      assert s[0] == a[0] && s[0] != '_';
      assert s[1..] == a[1..] + "_" + b;
      SplitUnderscoreOf(a[1..], b);
      assert [a[0]] + a[1..] == a;
    }
  }

  /** A non-empty run of digits, read as a number. */
  function Index(d: string): Option<nat> {
    if d != [] && AllDigits(d) then Some(ParseDec(d)) else None
  }

  /** Reads back the tag and base name from a file name. */
  function ParseFileName(s: string): Option<(Tag, string)> {
    if |s| >= 5 && s[..5] == "root_" then
      match SplitUnderscore(s[5..])
      case None => None
      case Some((d, base)) =>
        match Index(d)
        case None => None
        case Some(i) => Some((Root(i), base))
    else if |s| >= 5 && s[..5] == "link_" then
      match SplitUnderscore(s[5..])
      case None => None
      case Some((d, rest)) =>
        match Index(d)
        case None => None
        case Some(j) =>
          if |rest| >= 7 && rest[..7] == "direct_" then Some((Direct(j), rest[7..])) else None
    else
      match SplitUnderscore(s)
      case None => None
      case Some((d, rest)) =>
        match Index(d)
        case None => None
        case Some(j) =>
          match SplitUnderscore(rest)
          case None => None
          case Some((e, base)) =>
            match Index(e)
            case None => None
            case Some(i) => Some((OnPage(j, i), base))
  }

  lemma DecHasNoUnderscore(n: nat)
    ensures forall k | 0 <= k < |Dec(n)| :: Dec(n)[k] != '_'
  {
  }

  lemma IndexOfDec(n: nat)
    ensures Index(Dec(n)) == Some(n)
  {
    ParseDecOfDec(n);
  }

  lemma RootRoundTrip(i: nat, base: string)
    ensures ParseFileName(FileName(Root(i), base)) == Some((Root(i), base))
  {
    var s := FileName(Root(i), base);
    DecHasNoUnderscore(i);
    IndexOfDec(i);
    assert s[..5] == "root_";
    assert s[5..] == Dec(i) + "_" + base;
    SplitUnderscoreOf(Dec(i), base);
  }

  lemma DirectRoundTrip(j: nat, base: string)
    ensures ParseFileName(FileName(Direct(j), base)) == Some((Direct(j), base))
  {
    var s := FileName(Direct(j), base);
    DecHasNoUnderscore(j);
    IndexOfDec(j);
    assert s[..5] == "link_" && s[..5] != "root_";
    assert s[5..] == Dec(j) + "_" + ("direct_" + base);
    SplitUnderscoreOf(Dec(j), "direct_" + base);
    assert ("direct_" + base)[..7] == "direct_";
    assert ("direct_" + base)[7..] == base;
  }

  lemma OnPageRoundTrip(j: nat, i: nat, base: string)
    ensures ParseFileName(FileName(OnPage(j, i), base)) == Some((OnPage(j, i), base))
  {
    var s := FileName(OnPage(j, i), base);
    DecHasNoUnderscore(j);
    DecHasNoUnderscore(i);
    IndexOfDec(j);
    IndexOfDec(i);
    assert s[0] == Dec(j)[0] && IsDigit(s[0]);
    assert |s| >= 5 ==> s[..5][0] == s[0];
    assert s == Dec(j) + "_" + (Dec(i) + "_" + base);
    SplitUnderscoreOf(Dec(j), Dec(i) + "_" + base);
    SplitUnderscoreOf(Dec(i), base);
  }

  /** Every file name reads back as the tag and base name it was built from. */
  lemma ParseFileNameRoundTrip(t: Tag, base: string)
    ensures ParseFileName(FileName(t, base)) == Some((t, base))
  {
    match t
    case Root(i) => RootRoundTrip(i, base);
    case Direct(j) => DirectRoundTrip(j, base);
    case OnPage(j, i) => OnPageRoundTrip(j, i, base);
  }

  /** Different tags or different base names never give the same file name. */
  lemma FileNameInjective(t: Tag, base: string, t': Tag, base': string)
    ensures FileName(t, base) == FileName(t', base') ==> t == t' && base == base'
  {
    ParseFileNameRoundTrip(t, base);
    ParseFileNameRoundTrip(t', base');
  }
}

=== FILE: options.dfy ===
/** Python's `None`-or-value, for the attributes and headers the harvester
    reads that may be absent, and for the optional link budget. */
module Options {
  datatype Option<T> = None | Some(value: T)
}
